=== FILE: README.md ===
# strip-tags, modelled in Dafny

strip-tags turns HTML into plain text. It parses a page, keeps only the
elements that a list of CSS selectors picks out (the whole `body` when the
list is empty), and concatenates three things for each picked element:
its text, a newline if it is a block-level element, and its tail. It then
strips surrounding whitespace and, on request, minifies the whitespace
inside. The library entry point, `strip_tags(selectors, input, minify)`,
first prepares the parsed page in two passes:
- It removes every element that is not displayed by default (`script`,
  `style`, `head`, `[hidden]`, ...).
- It replaces every `img` that has an `alt` attribute with its alt text.

The command-line entry point `cli` skips both passes.

The project has five modules, one per file:

- `Whitespace` (whitespace.dfy) covers whitespace handling.
  - The whitespace class is `IsWs`, Python's `\s` and `str.isspace()`.
  - `Trim` is `str.strip()`. `Collapse` is the regular-expression
    substitution. `Minify` is `minify_whitespace`.
  - lib.py and cli.py carry identical copies of `minify_whitespace`, and
    this one module serves both.
- `Html` (html.dfy) holds the parsed document as a tree of `Text` and
  `Elem` nodes. It also defines `tag.text` (`TextOf`) and the
  NEWLINE_ELEMENTS set.
- `Prune` (prune.dfy) has:
  - the DISPLAY_NONE_SELECTORS list, as a datatype of three selector shapes;
  - the decompose loop;
  - the alt-text substitution;
  - `Prepare`, which composes them.
- `Extract` (extract.dfy) holds:
  - the selector walk, as the function `Walk` and as the source's two
    nested loops (`CollectOutput`);
  - the strip-then-minify finish;
  - the two entry points `StripTags` (lib.py) and `CliOutput` (cli.py).
- `Scenarios` (scenarios.dfy) states the rows of the command-line test
  table as lemmas. Each lemma uses the tree the HTML5 parser builds for its
  row. A tag-name query stands in for the CSS library.

Selector matching (`soup.select`) is a parameter of type `Query`. It is a
function from the document and a selector to the matched elements, in
document order. An element's tail is an optional string supplied with the
element. BeautifulSoup's `tag.tail` is not a text-after-the-element
lookup, so the model does not derive the tail from the element's siblings.

## Model

| member | source | states |
|---|---|---|
| Whitespace.Trim | strip_tags/lib.py:100 | `str.strip()`. The result is the input with its maximal leading whitespace run cut off and some all-whitespace suffix cut off. The result neither starts nor ends with whitespace. |
| Whitespace.TrimOfTrimmed | strip_tags/lib.py:100 | Stripping a string that has no outer whitespace returns it unchanged. |
| Whitespace.TrimKeepsNonWs | strip_tags/lib.py:100 | Stripping removes only whitespace: the non-whitespace characters survive in order. |
| Whitespace.TrimAroundTrimmed | strip_tags/lib.py:100 | Stripping all-whitespace padding off a non-empty trimmed string returns that string. |
| Whitespace.Minify | strip_tags/lib.py:110-120 | The result has no leading or trailing whitespace. Every maximal whitespace run left in it is exactly " ", "\n" or "\n\n". It keeps the non-whitespace characters of the input exactly and in order. It is never longer than the input. |
| Whitespace.MaximalRunReplaced | strip_tags/lib.py:111-118 | Each maximal whitespace run of the input is replaced in place by its replacement. The text before it and the text after it are rewritten independently. |
| Whitespace.CollapseFromRun | strip_tags/lib.py:111-118 | From the start of a maximal run, the substitution yields that run's replacement followed by the substitution of the rest. |
| Whitespace.ReplacementShape | strip_tags/lib.py:111-118 | `repl` only ever returns " ", "\n" or "\n\n". |
| Whitespace.CollapseOfRun | strip_tags/lib.py:111-120 | A string that is one whitespace run becomes that run's replacement. The replacement is "\n\n" for two or more newlines, "\n" for one and " " for none. |
| Whitespace.CollapseAppend | strip_tags/lib.py:107-120 | The substitution distributes over concatenation when the cut does not fall inside a whitespace run. |
| Whitespace.CollapseSplitAt | strip_tags/lib.py:107-120 | The same property, stated as a cut of one string at a position. |
| Whitespace.CollapseKeepsNonWs | strip_tags/lib.py:107-120 | The substitution keeps the non-whitespace characters exactly and in order. |
| Whitespace.CollapseNotLonger | strip_tags/lib.py:107-120 | The substitution never makes a string longer. |
| Whitespace.CollapseNormal | strip_tags/lib.py:107-120 | After the substitution the only whitespace is ' ' and '\n'. Two adjacent whitespace characters are both '\n'. No three in a row are whitespace. A leading non-whitespace character is kept. |
| Whitespace.CollapseKeepsLast | strip_tags/lib.py:107-120 | A trailing non-whitespace character is kept last. |
| Whitespace.CollapseOfNormal | strip_tags/lib.py:107-120 | A string already in that normal form is a fixed point of the substitution. |
| Whitespace.WsNormalRunsCollapsed | strip_tags/lib.py:111-118 | In a string in normal form every maximal whitespace run is " ", "\n" or "\n\n". |
| Whitespace.TrimNormal | strip_tags/lib.py:120 | Stripping keeps a string in normal form. |
| Whitespace.MinifyIdempotent | strip_tags/lib.py:110-120 | Minifying twice equals minifying once. |
| Whitespace.MinifyIgnoresOuterWs | strip_tags/lib.py:100-102 | Minifying the stripped text equals minifying the unstripped text, so the finish's strip before minify changes nothing. |
| Whitespace.MinifyAllWs | strip_tags/lib.py:110-120 | A string of only whitespace minifies to the empty string. |
| Whitespace.MinifyOfPadded | strip_tags/lib.py:110-120 | Outer whitespace padding disappears. The trimmed middle is minified on its own. |
| Whitespace.CollapseOfTrimmed | strip_tags/lib.py:107-120 | The substitution keeps a non-empty trimmed string non-empty and trimmed. |
| Whitespace.NonWsAppend | strip_tags/lib.py:110-120 | The non-whitespace characters of a concatenation are those of its parts, in order. |
| Whitespace.LeadingWsUnique | strip_tags/lib.py:107 | The maximal leading whitespace run that `\s+` matches is unique: any all-whitespace prefix followed by non-whitespace or the end is that run. |
| Html.TextIsLeavesInOrder | strip_tags/lib.py:93 | `tag.text` is the concatenation, in document order, of the text nodes in the element's subtree. |
| Html.TextOfAllAppend | strip_tags/lib.py:93 | The text of a node list distributes over concatenation. |
| Html.SubtreesTransitive | strip_tags/lib.py:91 | A descendant of a descendant is a descendant. |
| Prune.PruneInOrderIsPruneAny | strip_tags/lib.py:81-83 | The source's loop decomposes selector by selector. Its result equals one pass that removes every node matched by any of the selectors. |
| Prune.PruneCompose | strip_tags/lib.py:81-83 | Pruning by one selector list and then by another equals one pruning pass by both lists. |
| Prune.PruneNothing | strip_tags/lib.py:81-83 | An empty selector list removes nothing. |
| Prune.PruneRemovesAllMatches | strip_tags/lib.py:50-83 | After pruning, no node at any depth is matched by any of the selectors. |
| Prune.PruneKeepsUnmatched | strip_tags/lib.py:81-83 | When no node at any depth matches, pruning returns the document unchanged. |
| Prune.PruneNode | strip_tags/lib.py:81-83 | Pruning below an element keeps its name, attributes and tail. |
| Prune.SubstAlt | strip_tags/lib.py:86-87 | Alt substitution replaces nodes one for one and never changes the length of a node list. |
| Prune.SubstAltAppend | strip_tags/lib.py:86-87 | Alt substitution distributes over concatenation of node lists. |
| Prune.AltTextInPlace | strip_tags/lib.py:86-87 | An `img` with an `alt` attribute contributes exactly its alt value, in its own place, to the text around it. |
| Prune.SubstAltLeavesNoImg | strip_tags/lib.py:86-87 | After substitution no `img` with an `alt` attribute is left at any depth. |
| Prune.SubstAltKeepsUnmatched | strip_tags/lib.py:81-87 | Alt substitution does not bring back any node the display-none pass removed. |
| Prune.SubstAltKeepsImageFree | strip_tags/lib.py:86-87 | Nothing else changes: a node list with no `img` carrying `alt` at any depth comes out of the substitution unchanged. |
| Prune.PruneAnyAppend | strip_tags/lib.py:81-83 | Pruning a node list works element by element: pruning a concatenation is the concatenation of the pruned parts. |
| Prune.SubstAltNode | strip_tags/lib.py:86-87 | An `img` with `alt` becomes a text node holding the alt value. Any other node keeps its kind, name, attributes and tail, and only its subtree is substituted. |
| Prune.Prepare | strip_tags/lib.py:50-87 | After both passes the document node keeps its name, attributes and tail. No node below it matches a DISPLAY_NONE_SELECTORS entry or is an `img` with an `alt` attribute. |
| Prune.PrepareKeepsVisible | strip_tags/lib.py:81-87 | Nothing else changes: a document with no display-none element and no `img` with `alt` below it comes out of both passes unchanged. |
| Prune.PrepareChildren | strip_tags/lib.py:81-87 | The prepared document is the document with its children passed through both passes (`PassesAll`). |
| Prune.PassesNode | strip_tags/lib.py:81-87 | At any depth, an `img` with `alt` becomes its alt text, and any other element keeps its name, attributes and tail while its children go through both passes. |
| Prune.PassesDropHidden | strip_tags/lib.py:81-83 | In any list of siblings, at any depth, a display-none node is removed with its whole subtree, and the result equals that of the list without it. |
| Prune.PassesKeepVisibleChild | strip_tags/lib.py:81-87 | In any list of siblings, a node that is not display-none stays in its place and goes through both passes itself. |
| Prune.PassesAltTextInPlace | strip_tags/lib.py:81-87 | In any list of siblings, a non-hidden `img` with `alt` contributes exactly its alt value, in its own place, between the text of its prepared left and right siblings. |
| Extract.DefaultSelectors | strip_tags/lib.py:76-77 | An empty selector list becomes `["body"]`. A non-empty one is kept as it is. |
| Extract.CollectOutput | strip_tags/lib.py:90-100 | The two nested loops fill `output`. Joined, it equals the selector-major, document-order concatenation `Walk` defines. |
| Extract.AppendMatches | strip_tags/lib.py:91-98 | The inner loop appends, for every match of one selector in order, what the element contributes. |
| Extract.AppendMatch | strip_tags/lib.py:93-98 | For one element the loop body appends its text, then "\n" exactly when its name is in NEWLINE_ELEMENTS, then its tail when the tail is present and non-empty. |
| Extract.WalkAppend | strip_tags/lib.py:90-98 | Selectors are processed in list order and independently. The output for `a + b` is the output for `a` followed by the output for `b`. |
| Extract.WalkRepeatsSelector | strip_tags/lib.py:90-98 | Nothing is deduplicated. An element matched twice is emitted twice. |
| Extract.Finish | strip_tags/lib.py:100-104 | The result is always trimmed and keeps the non-whitespace characters of the joined text. Without minify it is the joined text with its outer whitespace cut off. With minify it is `minify_whitespace` of the joined text. |
| Extract.FinishIdempotent | strip_tags/lib.py:100-104 | Finishing an already minified result again changes nothing. |
| Extract.StripTags | strip_tags/lib.py:74-104 | The library result is trimmed and keeps the non-whitespace characters of the walk over the prepared document. With minify it is `minify_whitespace` of that walk. |
| Extract.StripTagsUnminified | strip_tags/lib.py:100-104 | Without minify, the library result is the walk over the prepared document with only its outer whitespace removed. |
| Extract.EmptySelectorsMeanBody | strip_tags/lib.py:76-77 | In both entry points an empty selector list gives the same result as `["body"]`. |
| Extract.CliOutput | strip_tags/cli.py:68-83 | The command's text before echo is trimmed. Without minify it is the walk over the document as parsed with only its outer whitespace removed. With minify it is `minify_whitespace` of that walk. |
| Extract.Printed | strip_tags/cli.py:84 | The text `click.echo` writes is the command's result followed by exactly one newline. |
| Extract.LibIsCliOnPrepared | strip_tags/cli.py:68-83 | The library result equals the command's result on the pruned, alt-substituted document. The command itself applies neither pass. |
| Extract.MatchesAreVisible | strip_tags/lib.py:81-98 | If the selector library reports only elements of the document, then no node inside any reported element is a display-none element or an `img` with alt text. None of their text reaches the output. |
| Scenarios.TagQueryExact | strip_tags/lib.py:91 | The tag-name query reports exactly the elements below the document with that tag, so it meets the assumption MatchesAreVisible makes. |
| Scenarios.HelloWorldDefault | tests/test_strip_tags.py:9 | `<p>Hello <b>world</b></p>` with no selectors: the body match gives the paragraph text, then a newline, then strip. |
| Scenarios.HelloWorldDefaultExample | tests/test_strip_tags.py:9 | The same with the test's strings gives "Hello world" before echo. |
| Scenarios.HelloWorldParagraph | tests/test_strip_tags.py:10 | With `["p"]` the block newline after the paragraph is stripped again. |
| Scenarios.HelloWorldParagraphExample | tests/test_strip_tags.py:10 | The same gives "Hello world". |
| Scenarios.HelloWorldBold | tests/test_strip_tags.py:11 | With `["b"]` only the bold text is emitted, with no newline, because `b` is not a block element. |
| Scenarios.HelloWorldBoldExample | tests/test_strip_tags.py:11 | The same gives "world". |
| Scenarios.InlineSelectors | tests/test_strip_tags.py:12 | With `["span", "i"]` the two inline texts are emitted in selector order with no separator. The unselected `b` contributes nothing. |
| Scenarios.InlineExample | tests/test_strip_tags.py:12 | The same gives "spani". |
| Scenarios.BlockSelectors | tests/test_strip_tags.py:13-14 | With `["h1", "pre"]` each block element's text is followed by a newline. |
| Scenarios.BlockExample | tests/test_strip_tags.py:13-14 | The same gives "H1\npre". |
| Scenarios.DefaultRowPrinted | tests/test_strip_tags.py:9 | With the newline `click.echo` appends (strip_tags/cli.py:84), the command prints "Hello world\n", as the row expects. |
| Scenarios.ParagraphRowPrinted | tests/test_strip_tags.py:10 | The command prints "Hello world\n", as the row expects. |
| Scenarios.BoldRowPrinted | strip_tags/cli.py:72-84 | The command prints "world\n" for `["b"]`. |
| Scenarios.BoldRowAsWritten | tests/test_strip_tags.py:11 | What the command prints differs from the "world" the row expects. |
| Scenarios.InlineRowPrinted | strip_tags/cli.py:72-84 | The command prints "spani\n" for `["span", "i"]`. |
| Scenarios.InlineRowAsWritten | tests/test_strip_tags.py:12 | What the command prints differs from the "spani" the row expects. |
| Scenarios.BlockRowPrinted | tests/test_strip_tags.py:13-14 | The command prints "H1\npre\n", as the row expects. |
| Scenarios.DefaultRowRawWalk | tests/test_strip_tags.py:9 | The other reading of the table: the walk's join before `.strip()` is exactly the row's "Hello world\n"; its newline is body's block newline. |
| Scenarios.ParagraphRowRawWalk | tests/test_strip_tags.py:10 | The join before strip is the row's "Hello world\n"; its newline is p's block newline. |
| Scenarios.BoldRowRawWalk | tests/test_strip_tags.py:11 | The join before strip is the row's "world", with no newline. |
| Scenarios.InlineRowRawWalk | tests/test_strip_tags.py:12 | The join before strip is the row's "spani", with no newline. |
| Scenarios.BlockRowRawWalk | tests/test_strip_tags.py:13-14 | The join before strip is the row's "H1\npre\n"; its last newline is pre's block newline, as the comment on line 13 says. |
| Whitespace.IsWs | strip_tags/lib.py:107 | Definition, no contract: the characters `\s` matches on a `str` pattern, the same set `.strip()` removes (lib.py:100, lib.py:120). |
| Whitespace.CountNewlines | strip_tags/lib.py:112 | `m.group(0).count("\n")`: never more than the length, and zero exactly when the run holds no "\n". |
| Html.IsBlock | strip_tags/lib.py:94 | Definition, no contract: `tag.name in NEWLINE_ELEMENTS`. |
| Prune.Matches | strip_tags/lib.py:50-71 | Definition, no contract: how each of the three selector shapes of DISPLAY_NONE_SELECTORS selects a node, as `soup.select(none_selector)` does at lib.py:82. Text nodes match nothing. |
| Prune.IsImgWithAlt | strip_tags/lib.py:86 | Definition, no contract: the `img[alt]` selector, an `img` element with an `alt` attribute of any value. |
| Whitespace.Replacement | strip_tags/lib.py:111-118 | Definition, no contract: `repl`, choosing by the run's count of "\n". Its properties are in ReplacementShape and CollapseOfRun. |
| Whitespace.Collapse | strip_tags/lib.py:107-120 | Definition, no contract: `_whitespace_re.sub(repl, text)`. Its properties are in MaximalRunReplaced and the Collapse lemmas. |
| Html.NewlineElements | strip_tags/lib.py:7-48 | Definition: the 38 tag names of NEWLINE_ELEMENTS. |
| Html.TextOf | strip_tags/lib.py:93 | Definition, no contract: `tag.text`. Its property is in TextIsLeavesInOrder. |
| Prune.DisplayNoneSelectors | strip_tags/lib.py:50-71 | Definition: the 20 entries of DISPLAY_NONE_SELECTORS, in order, in their three shapes. |
| Prune.PruneAny | strip_tags/lib.py:81-83 | Definition, no contract: one pass removing every node any selector matches. Its properties are in PruneRemovesAllMatches, PruneKeepsUnmatched and PruneInOrderIsPruneAny. |
| Prune.PruneInOrder | strip_tags/lib.py:81-83 | Definition, no contract: the selector-by-selector decompose loop. Its property is in PruneInOrderIsPruneAny. |
| Extract.TailOf | strip_tags/lib.py:97-98 | Definition, no contract: `if tag.tail:`, where a missing and an empty tail both contribute nothing. |
| Extract.Emit | strip_tags/lib.py:93-98 | Definition, no contract: what one match contributes. Its property is in AppendMatch. |
| Extract.Walk | strip_tags/lib.py:90-98 | Definition, no contract: the selector-major, document-order concatenation. Its properties are in CollectOutput and WalkAppend. |

## Left out

- Parsing HTML into a tree (`BeautifulSoup(input, "html5lib")`) belongs to
  the parser library. The tree is an input.
- CSS selector matching (`soup.select`) belongs to the CSS library. It is
  the `Query` parameter. `Scenarios.TagQuery` is one instance, for type
  selectors only.
- Invalid selectors are not modelled. `soup.select` raises an exception
  on a selector the CSS library cannot parse (strip_tags/lib.py:91,
  strip_tags/cli.py:73), and then no output is produced. `Query` is a total
  function, so the model has no such error path.
- Prune.Matches compares `input[type=hidden]` and `menu[type=context]`
  attribute values exactly. The CSS library may compare some HTML
  attribute values case-insensitively.
- `Prepare` never tests the document node itself against a selector,
  because `select` searches below the node it is called on. The walk
  leaves this to the `Query` parameter, which may return any nodes. Only
  `Scenarios.TagQuery` and the assumption of `Extract.MatchesAreVisible`
  restrict the matches to the document's descendants.
- Html.TextOf concatenates text nodes only. Comments, CDATA and other
  special strings that `tag.text` may treat differently are not
  distinguished from text.
- The tail of an element is an opaque optional field. How BeautifulSoup
  resolves `tag.tail` is not modelled.
- `IsWs` fixes the whitespace class as Python 3's Unicode `\s`, which is
  the set `str.strip()` also uses. The general lemmas depend only on ' '
  and '\n' being members. The Scenarios lemmas also depend on the letters
  of the test strings not being members.
- The click command, its options, and reading stdin or a file
  (strip_tags/cli.py:51-67) are I/O. Writing the result is modelled only
  as text: `Extract.Printed` is the result followed by the newline
  `click.echo` (strip_tags/cli.py:84) appends.
- Extract.Printed does not model `click.echo` removing ANSI escape
  sequences when the output stream is not a terminal. The result of
  strip_tags can hold such sequences only if the page text does.
- setup.py is packaging.
- tests/test_lib/test_lib.py and tests/test_cli/test_cli.py read a YAML
  case file that is not part of this model. They call `strip_tags` with
  arguments (`first`, `keep_tags`, `all_attrs`) that strip_tags/lib.py:74
  does not accept. Those features are not modelled.

## Findings

The test table and the command disagree on two rows, and the table alone
does not say which side is wrong. strip_tags/cli.py:81 strips the joined
text and strip_tags/cli.py:84 echoes it with a newline. Rows 9, 10 and 14
agree with that, but all five rows also equal the walk's join before
`.strip()`, printed with no newline (the `*RowRawWalk` lemmas). Under that
reading each trailing "\n" is a block element's newline, which is what the
comment at tests/test_strip_tags.py:13 describes. Either rows 11 and 12
lack echo's newline, or strip_tags/cli.py:81 and strip_tags/cli.py:84 both
depart from the output the table was written for. The rest of the model
follows the code.

| source | as written | input that shows it | evidently intended | confidence | as-written member | corrected member |
|---|---|---|---|---|---|---|
| tests/test_strip_tags.py:11 | The row expects the command to print `"world"`. strip_tags/cli.py:84 prints with `click.echo`, which appends a newline after the stripped text. | `<p>Hello <b>world</b></p>` with selectors `["b"]` | Undecided. Either the row should read `"world\n"`, which is what the code prints, or the code should print the unstripped join with no newline, which gives `"world"` (Scenarios.BoldRowRawWalk) and fits all five rows. | not executed; low as to which side is wrong | Scenarios.BoldRowAsWritten | Scenarios.BoldRowPrinted |
| tests/test_strip_tags.py:12 | The row expects the command to print `"spani"`. The command appends a newline here too. | `<div><span>span</span><b>b</b><i>i</i>` with selectors `["span", "i"]` | Undecided. Either `"spani\n"`, the code's output, or the unstripped join with no newline, `"spani"` (Scenarios.InlineRowRawWalk). | not executed; low as to which side is wrong | Scenarios.InlineRowAsWritten | Scenarios.InlineRowPrinted |

=== FILE: extract.dfy ===
/** The extraction entry points: `strip_tags(selectors, input, minify)` in
    lib.py and the body of the `cli` command in cli.py. Both walk the
    selectors in the order given and, for every element a selector matches,
    in document order, collect the element's text, a newline after a block
    element, and the element's tail; the joined text is stripped and, on
    request, minified. lib.py first prunes the document (module Prune);
    cli.py does not. */
module Extract {
  import opened Html
  import opened Whitespace
  import opened Prune

  /** `soup.select(selector)`: the elements under the document that a CSS
      selector matches, in document order. Selector matching belongs to the
      CSS library and is a parameter of the model. */
  type Query = (Node, string) -> seq<Node>

  /** The tail an element contributes: `if tag.tail:` skips a missing and an
      empty tail alike. */
  function TailOf(n: Node): string {
    if n.Elem? && n.tail.Some? && n.tail.value != "" then n.tail.value else ""
  }

  /** What the loop appends for one matched element. */
  function Emit(m: Node): string {
    TextOf(m) + (if IsBlock(m) then "\n" else "") + TailOf(m)
  }

  function EmitAll(ms: seq<Node>): string {
    if ms == [] then [] else Emit(ms[0]) + EmitAll(ms[1..])
  }

  /** The text collected before stripping: selectors in the order given,
      and for each its matches in document order. Nothing is deduplicated:
      an element matched by several selectors is emitted once per selector. */
  function Walk(doc: Node, sels: seq<string>, q: Query): string {
    if sels == [] then [] else EmitAll(q(doc, sels[0])) + Walk(doc, sels[1..], q)
  }

  /** `"".join(parts)` */
  function Join(parts: seq<string>): string {
    if parts == [] then [] else parts[0] + Join(parts[1..])
  }

  /** An empty selector list means `["body"]`. */
  function DefaultSelectors(sels: seq<string>): (r: seq<string>)
    ensures sels == [] ==> r == ["body"]
    ensures sels != [] ==> r == sels
  {
    if sels == [] then ["body"] else sels
  }

  /** The two nested loops of the source that fill `output`, then the join.
      The joined output is the selector-major, document-order concatenation
      Walk describes. */
  method CollectOutput(doc: Node, sels: seq<string>, q: Query) returns (joined: string)
    ensures joined == Walk(doc, sels, q)
  {
    var output: seq<string> := [];
    var i := 0;
    while i < |sels|
      invariant 0 <= i <= |sels|
      invariant Join(output) == Walk(doc, sels[..i], q)
    {
      output := AppendMatches(output, q(doc, sels[i]));
      WalkSnoc(doc, sels, i, q);
      i := i + 1;
    }
    assert sels[..|sels|] == sels;
    joined := Join(output);
  }

  /** The inner loop: every match of one selector, in the order the
      selector library reports them. */
  method AppendMatches(output: seq<string>, matches: seq<Node>) returns (output': seq<string>)
    ensures Join(output') == Join(output) + EmitAll(matches)
  {
    output' := output;
    var j := 0;
    while j < |matches|
      invariant 0 <= j <= |matches|
      invariant Join(output') == Join(output) + EmitAll(matches[..j])
    {
      output' := AppendMatch(output', matches[j]);
      EmitAllSnoc(matches, j);
      j := j + 1;
    }
    assert matches[..|matches|] == matches;
  }

  /** The body of the inner loop for one matched element: append its text,
      then a newline if it is a block element, then its tail if it has a
      non-empty one. */
  method AppendMatch(output: seq<string>, tag: Node) returns (output': seq<string>)
    ensures Join(output') == Join(output) + Emit(tag)
  {
    output' := output;
    JoinSnoc(output', TextOf(tag));
    output' := output' + [TextOf(tag)];
    if IsBlock(tag) {
      JoinSnoc(output', "\n");
      output' := output' + ["\n"];
    }
    if tag.Elem? && tag.tail.Some? && tag.tail.value != "" {
      JoinSnoc(output', tag.tail.value);
      output' := output' + [tag.tail.value];
    }
  }

  /** Strip, then minify if asked. */
  function Finish(acc: string, minify: bool): (r: string)
    ensures IsTrimmed(r)
    ensures NonWs(r) == NonWs(acc)
    ensures !minify ==> && LeadingWs(acc) + |r| <= |acc|
                        && r == acc[LeadingWs(acc)..LeadingWs(acc) + |r|]
                        && AllWs(acc[LeadingWs(acc) + |r|..])
    ensures minify ==> r == Minify(acc) && RunsCollapsed(r)
  {
    var stripped := Trim(acc);
    TrimKeepsNonWs(acc);
    if minify then
      MinifyIgnoresOuterWs(acc);
      var r := Minify(stripped);
      assert NonWs(r) == NonWs(stripped);
      r
    else
      stripped
  }

  /** lib.py's `strip_tags(selectors, input, minify)`, on the parsed
      document. */
  function StripTags(sels: seq<string>, doc: Node, minify: bool, q: Query): (r: string)
    ensures IsTrimmed(r)
    ensures NonWs(r) == NonWs(Walk(Prepare(doc), DefaultSelectors(sels), q))
    ensures minify ==> r == Minify(Walk(Prepare(doc), DefaultSelectors(sels), q))
  {
    Finish(Walk(Prepare(doc), DefaultSelectors(sels), q), minify)
  }

  /** The body of cli.py's `cli` command up to `click.echo`: the same walk
      and finish, on the document as parsed, with no pruning and no image
      substitution. */
  function CliOutput(sels: seq<string>, doc: Node, minify: bool, q: Query): (r: string)
    ensures IsTrimmed(r)
    ensures NonWs(r) == NonWs(Walk(doc, DefaultSelectors(sels), q))
    ensures !minify ==> r == Trim(Walk(doc, DefaultSelectors(sels), q))
    ensures minify ==> r == Minify(Walk(doc, DefaultSelectors(sels), q))
  {
    Finish(Walk(doc, DefaultSelectors(sels), q), minify)
  }

  /** The text `click.echo(final)` is given to write, followed by the
      newline it appends. Echo's removal of terminal escape sequences on a
      non-terminal stream is not modelled. */
  function Printed(sels: seq<string>, doc: Node, minify: bool, q: Query): (r: string)
    ensures |r| == |CliOutput(sels, doc, minify, q)| + 1
    ensures r[..|r| - 1] == CliOutput(sels, doc, minify, q) && r[|r| - 1] == '\n'
  {
    CliOutput(sels, doc, minify, q) + "\n"
  }

  // ---------------------------------------------------------------------
  // Helpers for the loop

  lemma {:induction false} JoinAppend(a: seq<string>, b: seq<string>)
    ensures Join(a + b) == Join(a) + Join(b)
    decreases |a|
  {
    if a == [] {
      assert a + b == b;
    } else {
      assert (a + b)[0] == a[0];
      assert (a + b)[1..] == a[1..] + b;
      JoinAppend(a[1..], b);
      assert a[0] + (Join(a[1..]) + Join(b)) == (a[0] + Join(a[1..])) + Join(b);
    }
  }

  lemma JoinSnoc(parts: seq<string>, x: string)
    ensures Join(parts + [x]) == Join(parts) + x
  {
    JoinAppend(parts, [x]);
    assert Join([x]) == x + Join([]);
  }

  lemma {:induction false} EmitAllAppend(a: seq<Node>, b: seq<Node>)
    ensures EmitAll(a + b) == EmitAll(a) + EmitAll(b)
    decreases |a|
  {
    if a == [] {
      assert a + b == b;
    } else {
      assert (a + b)[0] == a[0];
      assert (a + b)[1..] == a[1..] + b;
      EmitAllAppend(a[1..], b);
      assert Emit(a[0]) + (EmitAll(a[1..]) + EmitAll(b)) == (Emit(a[0]) + EmitAll(a[1..])) + EmitAll(b);
    }
  }

  lemma EmitAllSnoc(ms: seq<Node>, j: int)
    requires 0 <= j < |ms|
    ensures EmitAll(ms[..j + 1]) == EmitAll(ms[..j]) + Emit(ms[j])
  {
    assert ms[..j + 1] == ms[..j] + [ms[j]];
    EmitAllAppend(ms[..j], [ms[j]]);
    assert EmitAll([ms[j]]) == Emit(ms[j]) + EmitAll([]);
  }

  lemma WalkSnoc(doc: Node, sels: seq<string>, i: int, q: Query)
    requires 0 <= i < |sels|
    ensures Walk(doc, sels[..i + 1], q) == Walk(doc, sels[..i], q) + EmitAll(q(doc, sels[i]))
  {
    assert sels[..i + 1] == sels[..i] + [sels[i]];
    WalkAppend(doc, sels[..i], [sels[i]], q);
    assert Walk(doc, [sels[i]], q) == EmitAll(q(doc, sels[i])) + Walk(doc, [], q);
  }

  // ---------------------------------------------------------------------
  // Properties of the walk and of the entry points

  /** The output for a selector list is the output for its first part
      followed by the output for the rest: selectors are processed in list
      order and independently of each other. */
  lemma {:induction false} WalkAppend(doc: Node, a: seq<string>, b: seq<string>, q: Query)
    ensures Walk(doc, a + b, q) == Walk(doc, a, q) + Walk(doc, b, q)
    decreases |a|
  {
    if a == [] {
      assert a + b == b;
    } else {
      assert (a + b)[0] == a[0];
      assert (a + b)[1..] == a[1..] + b;
      WalkAppend(doc, a[1..], b, q);
      var h := EmitAll(q(doc, a[0]));
      assert h + (Walk(doc, a[1..], q) + Walk(doc, b, q)) == (h + Walk(doc, a[1..], q)) + Walk(doc, b, q);
    }
  }

  /** No deduplication: repeating a selector repeats its whole output.
      (By WalkAppend, an element matched by two different selectors is
      likewise emitted once for each of them.) */
  lemma WalkRepeatsSelector(doc: Node, s: string, q: Query)
    ensures Walk(doc, [s, s], q) == Walk(doc, [s], q) + Walk(doc, [s], q)
  {
    WalkAppend(doc, [s], [s], q);
    assert [s] + [s] == [s, s];
  }

  /** An empty selector list behaves exactly like `["body"]`, in lib.py and
      in cli.py. */
  lemma EmptySelectorsMeanBody(doc: Node, minify: bool, q: Query)
    ensures StripTags([], doc, minify, q) == StripTags(["body"], doc, minify, q)
    ensures CliOutput([], doc, minify, q) == CliOutput(["body"], doc, minify, q)
  {
  }

  /** The library entry point is the command-line walk run on the pruned,
      image-substituted document. */
  lemma LibIsCliOnPrepared(sels: seq<string>, doc: Node, minify: bool, q: Query)
    ensures StripTags(sels, doc, minify, q) == CliOutput(sels, Prepare(doc), minify, q)
  {
  }

  /** With minification off the result is the collected text with its
      surrounding whitespace stripped, and nothing else changed. */
  lemma StripTagsUnminified(sels: seq<string>, doc: Node, q: Query)
    ensures var acc := Walk(Prepare(doc), DefaultSelectors(sels), q);
            var r := StripTags(sels, doc, false, q);
            && LeadingWs(acc) + |r| <= |acc|
            && r == acc[LeadingWs(acc)..LeadingWs(acc) + |r|]
            && AllWs(acc[LeadingWs(acc) + |r|..])
  {
  }

  /** Minifying the result of a minified extraction changes nothing. */
  lemma FinishIdempotent(acc: string)
    ensures Finish(Finish(acc, true), true) == Finish(acc, true)
  {
    MinifyIdempotent(acc);
  }

  /** If every element the selector library reports for a selector lies
      inside the prepared document, then no node of any matched subtree is
      a display-none element or an image with alt text: none of their text
      can reach the output of lib.py. */
  lemma MatchesAreVisible(doc: Node, sel: string, q: Query)
    requires doc.Elem?
    requires forall m :: m in q(Prepare(doc), sel) ==> m in SubtreesOfAll(Prepare(doc).children)
    ensures forall m, x :: m in q(Prepare(doc), sel) && x in Subtrees(m) ==> Visible(x)
  {
    forall m, x | m in q(Prepare(doc), sel) && x in Subtrees(m)
      ensures Visible(x)
    {
      VisibleBelow(doc, m, x);
    }
  }

  lemma VisibleBelow(doc: Node, m: Node, x: Node)
    requires doc.Elem?
    requires m in SubtreesOfAll(Prepare(doc).children) && x in Subtrees(m)
    ensures Visible(x)
  {
    var p := Prepare(doc);
    SubtreesOfAllTransitive(p.children, m, x);
  }
}

=== FILE: html.dfy ===
/** The parsed document as strip_tags sees it: a tree of elements and text
    nodes. Building the tree from markup belongs to the HTML parser and is
    not modelled; the tree is taken as given. */
module Html {

  datatype Option<T> = None | Some(value: T)

  /** A node of the parsed document. `tail` is the element's optional tail
      text; it is supplied with the element and is not derived from the
      element's siblings, and it is not part of the element's text. */
  datatype Node =
    | Text(content: string)
    | Elem(name: string, attrs: map<string, string>, children: seq<Node>, tail: Option<string>)

  /** NEWLINE_ELEMENTS: tags whose direct selector matches are followed by a
      newline (default `display: block` elements, plus `li`). */
  const NewlineElements: set<string> := {
    "address", "article", "aside", "blockquote", "body", "center", "dd",
    "dir", "div", "dl", "dt", "figure", "figcaption", "footer", "form",
    "h1", "h2", "h3", "h4", "h5", "h6", "header", "hgroup", "hr", "html",
    "legend", "listing", "menu", "nav", "ol", "p", "plaintext", "pre",
    "section", "summary", "ul", "xmp", "li"
  }

  predicate IsBlock(n: Node) {
    n.Elem? && n.name in NewlineElements
  }

  /** `tag.text`: the text of all descendant text nodes, in document order. */
  function TextOf(n: Node): string
    decreases n, 1
  {
    match n
    case Text(s) => s
    case Elem(_, _, children, _) => TextOfAll(children)
  }

  function TextOfAll(ns: seq<Node>): string
    decreases ns, 0
  {
    if ns == [] then [] else TextOf(ns[0]) + TextOfAll(ns[1..])
  }

  /** The nodes of a tree in document (pre-)order, the root first. */
  function Subtrees(n: Node): (r: seq<Node>)
    ensures |r| >= 1 && r[0] == n
    decreases n, 1
  {
    match n
    case Text(_) => [n]
    case Elem(_, _, children, _) => [n] + SubtreesOfAll(children)
  }

  function SubtreesOfAll(ns: seq<Node>): seq<Node>
    decreases ns, 0
  {
    if ns == [] then [] else Subtrees(ns[0]) + SubtreesOfAll(ns[1..])
  }

  /** The contents of the text nodes of a node list, ignoring elements. */
  function LeafText(ns: seq<Node>): string {
    if ns == [] then []
    else (if ns[0].Text? then ns[0].content else []) + LeafText(ns[1..])
  }

  // ---------------------------------------------------------------------

  lemma {:induction false} TextOfAllAppend(a: seq<Node>, b: seq<Node>)
    ensures TextOfAll(a + b) == TextOfAll(a) + TextOfAll(b)
    decreases |a|
  {
    if a == [] {
      assert a + b == b;
    } else {
      assert (a + b)[0] == a[0];
      assert (a + b)[1..] == a[1..] + b;
      TextOfAllAppend(a[1..], b);
      assert TextOf(a[0]) + (TextOfAll(a[1..]) + TextOfAll(b)) == (TextOf(a[0]) + TextOfAll(a[1..])) + TextOfAll(b);
    }
  }

  lemma {:induction false} SubtreesOfAllAppend(a: seq<Node>, b: seq<Node>)
    ensures SubtreesOfAll(a + b) == SubtreesOfAll(a) + SubtreesOfAll(b)
    decreases |a|
  {
    if a == [] {
      assert a + b == b;
    } else {
      assert (a + b)[0] == a[0];
      assert (a + b)[1..] == a[1..] + b;
      SubtreesOfAllAppend(a[1..], b);
      assert Subtrees(a[0]) + (SubtreesOfAll(a[1..]) + SubtreesOfAll(b)) == (Subtrees(a[0]) + SubtreesOfAll(a[1..])) + SubtreesOfAll(b);
    }
  }

  lemma {:induction false} LeafTextAppend(a: seq<Node>, b: seq<Node>)
    ensures LeafText(a + b) == LeafText(a) + LeafText(b)
    decreases |a|
  {
    if a == [] {
      assert a + b == b;
    } else {
      assert (a + b)[0] == a[0];
      assert (a + b)[1..] == a[1..] + b;
      LeafTextAppend(a[1..], b);
      assert (if a[0].Text? then a[0].content else []) + (LeafText(a[1..]) + LeafText(b)) == ((if a[0].Text? then a[0].content else []) + LeafText(a[1..])) + LeafText(b);
    }
  }

  /** The text of a node is the concatenation, in document order, of the
      text nodes found in its subtree. */
  lemma {:induction false} TextIsLeavesInOrder(n: Node)
    ensures TextOf(n) == LeafText(Subtrees(n))
    decreases n, 1
  {
    match n
    case Text(s) =>
      assert LeafText([n]) == s + LeafText([]);
    case Elem(_, _, children, _) =>
      TextOfAllIsLeavesInOrder(children);
      LeafTextAppend([n], SubtreesOfAll(children));
  }

  lemma {:induction false} TextOfAllIsLeavesInOrder(ns: seq<Node>)
    ensures TextOfAll(ns) == LeafText(SubtreesOfAll(ns))
    decreases ns, 0
  {
    if ns != [] {
      TextIsLeavesInOrder(ns[0]);
      TextOfAllIsLeavesInOrder(ns[1..]);
      LeafTextAppend(Subtrees(ns[0]), SubtreesOfAll(ns[1..]));
    }
  }

  /** A subtree of a subtree is a subtree. */
  lemma {:induction false} SubtreesTransitive(n: Node, m: Node, x: Node)
    requires m in Subtrees(n) && x in Subtrees(m)
    ensures x in Subtrees(n)
    decreases n, 1
  {
    if m != n {
      match n
      case Elem(_, _, children, _) =>
        SubtreesOfAllTransitive(children, m, x);
    }
  }

  lemma {:induction false} SubtreesOfAllTransitive(ns: seq<Node>, m: Node, x: Node)
    requires m in SubtreesOfAll(ns) && x in Subtrees(m)
    ensures x in SubtreesOfAll(ns)
    decreases ns, 0
  {
    if m in Subtrees(ns[0]) {
      SubtreesTransitive(ns[0], m, x);
    } else {
      SubtreesOfAllTransitive(ns[1..], m, x);
    }
  }
}

=== FILE: prune.dfy ===
/** The two passes strip_tags (lib.py) runs over the parsed document before
    it extracts any text: every element that the default style sheet would
    not display is removed together with its subtree, then every image that
    carries an `alt` attribute is replaced by a text node holding the alt
    value. The command-line entry point (cli.py) runs neither pass. */
module Prune {
  import opened Html

  /** The three shapes the entries of DISPLAY_NONE_SELECTORS take. */
  datatype SimpleSelector =
    | ByTag(tag: string)                                  // `head`
    | ByAttr(attr: string)                                // `[hidden]`
    | ByTagAttrValue(tag: string, attr: string, value: string)  // `input[type=hidden]`

  /** DISPLAY_NONE_SELECTORS, in the order the source lists them. */
  const DisplayNoneSelectors: seq<SimpleSelector> := [
    ByAttr("hidden"),
    ByTag("area"),
    ByTag("base"),
    ByTag("basefont"),
    ByTag("command"),
    ByTag("datalist"),
    ByTag("head"),
    ByTagAttrValue("input", "type", "hidden"),
    ByTag("link"),
    ByTagAttrValue("menu", "type", "context"),
    ByTag("meta"),
    ByTag("noembed"),
    ByTag("noframes"),
    ByTag("param"),
    ByTag("rp"),
    ByTag("script"),
    ByTag("source"),
    ByTag("style"),
    ByTag("track"),
    ByTag("title")
  ]

  /** Does the selector match the node itself? Text nodes match nothing. */
  predicate Matches(sel: SimpleSelector, n: Node) {
    match n
    case Text(_) => false
    case Elem(name, attrs, _, _) =>
      match sel
      case ByTag(t) => name == t
      case ByAttr(a) => a in attrs
      case ByTagAttrValue(t, a, v) => name == t && a in attrs && attrs[a] == v
  }

  predicate MatchesAny(sels: seq<SimpleSelector>, n: Node) {
    exists sel :: sel in sels && Matches(sel, n)
  }

  /** The same kind of node and, for an element, the same name, attributes
      and tail: what selector matching, the block newline and the emitted
      tail look at. */
  predicate SameShape(n: Node, m: Node) {
    && n.Text? == m.Text?
    && (n.Elem? ==> n.name == m.name && n.attrs == m.attrs && n.tail == m.tail)
  }

  /** One pass that decomposes every node of the list, at any depth,
      matched by one of `sels`; a removed node takes its subtree and its
      tail with it. */
  function PruneAny(sels: seq<SimpleSelector>, ns: seq<Node>): seq<Node>
    decreases ns, 0
  {
    if ns == [] then []
    else if MatchesAny(sels, ns[0]) then PruneAny(sels, ns[1..])
    else [PruneNode(sels, ns[0])] + PruneAny(sels, ns[1..])
  }

  function PruneNode(sels: seq<SimpleSelector>, n: Node): (r: Node)
    ensures SameShape(n, r)
    decreases n, 1
  {
    match n
    case Text(_) => n
    case Elem(name, attrs, children, tail) => Elem(name, attrs, PruneAny(sels, children), tail)
  }

  /** The source's loop: for each selector in turn, decompose every element
      it matches in what is left of the document. */
  function PruneInOrder(sels: seq<SimpleSelector>, ns: seq<Node>): seq<Node>
    decreases |sels|
  {
    if sels == [] then ns else PruneInOrder(sels[1..], PruneAny([sels[0]], ns))
  }

  // ---------------------------------------------------------------------

  /** Pruning by `a` and then by `b` is one pruning pass by both. */
  lemma {:induction false} PruneCompose(a: seq<SimpleSelector>, b: seq<SimpleSelector>, ns: seq<Node>)
    ensures PruneAny(b, PruneAny(a, ns)) == PruneAny(a + b, ns)
    decreases ns, 0
  {
    if ns != [] {
      var h, t := ns[0], ns[1..];
      PruneCompose(a, b, t);
      if !MatchesAny(a, h) {
        var h' := PruneNode(a, h);
        var rest := PruneAny(a, t);
        assert ([h'] + rest)[0] == h' && ([h'] + rest)[1..] == rest;
        assert MatchesAny(b, h') == MatchesAny(b, h) by {
          forall sel ensures Matches(sel, h') == Matches(sel, h) { }
        }
        if !MatchesAny(b, h) {
          PruneNodeCompose(a, b, h);
        }
      }
    }
  }

  lemma {:induction false} PruneNodeCompose(a: seq<SimpleSelector>, b: seq<SimpleSelector>, n: Node)
    ensures PruneNode(b, PruneNode(a, n)) == PruneNode(a + b, n)
    decreases n, 1
  {
    match n
    case Text(_) =>
    case Elem(_, _, children, _) =>
      PruneCompose(a, b, children);
  }

  /** The source's selector-by-selector removal loop removes exactly what
      one pass over all the selectors removes: every node matched by any of
      them, whatever order the selectors come in and even when one removal
      already took another match with it. */
  lemma {:induction false} PruneInOrderIsPruneAny(sels: seq<SimpleSelector>, ns: seq<Node>)
    ensures PruneInOrder(sels, ns) == PruneAny(sels, ns)
    decreases |sels|
  {
    if sels == [] {
      PruneNothing(ns);
    } else {
      PruneInOrderIsPruneAny(sels[1..], PruneAny([sels[0]], ns));
      PruneCompose([sels[0]], sels[1..], ns);
      assert [sels[0]] + sels[1..] == sels;
    }
  }

  lemma {:induction false} PruneNothing(ns: seq<Node>)
    ensures PruneAny([], ns) == ns
    decreases ns, 0
  {
    if ns != [] {
      PruneNothing(ns[1..]);
      PruneNodeNothing(ns[0]);
      assert ns == [ns[0]] + ns[1..];
    }
  }

  lemma {:induction false} PruneNodeNothing(n: Node)
    ensures PruneNode([], n) == n
    decreases n, 1
  {
    match n
    case Text(_) =>
    case Elem(_, _, children, _) =>
      PruneNothing(children);
  }

  /** After pruning, no node anywhere in what is left is matched by any of
      the selectors. */
  lemma {:induction false} PruneRemovesAllMatches(sels: seq<SimpleSelector>, ns: seq<Node>)
    ensures forall m :: m in SubtreesOfAll(PruneAny(sels, ns)) ==> !MatchesAny(sels, m)
    decreases ns, 0
  {
    if ns != [] {
      PruneRemovesAllMatches(sels, ns[1..]);
      if !MatchesAny(sels, ns[0]) {
        var h := PruneNode(sels, ns[0]);
        PruneNodeRemovesAllMatches(sels, ns[0]);
        var rest := PruneAny(sels, ns[1..]);
        assert ([h] + rest)[0] == h && ([h] + rest)[1..] == rest;
      }
    }
  }

  lemma {:induction false} PruneNodeRemovesAllMatches(sels: seq<SimpleSelector>, n: Node)
    requires !MatchesAny(sels, n)
    ensures forall m :: m in Subtrees(PruneNode(sels, n)) ==> !MatchesAny(sels, m)
    decreases n, 1
  {
    match n
    case Text(_) =>
    case Elem(_, _, children, _) =>
      PruneRemovesAllMatches(sels, children);
  }

  /** Nothing else changes: a document none of whose nodes is matched comes
      out of the pruning pass unchanged. */
  lemma {:induction false} PruneKeepsUnmatched(sels: seq<SimpleSelector>, ns: seq<Node>)
    requires forall m :: m in SubtreesOfAll(ns) ==> !MatchesAny(sels, m)
    ensures PruneAny(sels, ns) == ns
    decreases ns, 0
  {
    if ns != [] {
      SubtreesOfAllAppend([ns[0]], ns[1..]);
      assert ns == [ns[0]] + ns[1..];
      assert SubtreesOfAll([ns[0]]) == Subtrees(ns[0]) + [];
      PruneKeepsUnmatched(sels, ns[1..]);
      PruneNodeKeepsUnmatched(sels, ns[0]);
    }
  }

  lemma {:induction false} PruneNodeKeepsUnmatched(sels: seq<SimpleSelector>, n: Node)
    requires forall m :: m in Subtrees(n) ==> !MatchesAny(sels, m)
    ensures PruneNode(sels, n) == n
    decreases n, 1
  {
    match n
    case Text(_) =>
    case Elem(_, _, children, _) =>
      PruneKeepsUnmatched(sels, children);
  }

  /** Pruning a node list works element by element. */
  lemma {:induction false} PruneAnyAppend(sels: seq<SimpleSelector>, a: seq<Node>, b: seq<Node>)
    ensures PruneAny(sels, a + b) == PruneAny(sels, a) + PruneAny(sels, b)
    decreases |a|
  {
    if a == [] {
      assert a + b == b;
    } else {
      assert (a + b)[0] == a[0];
      assert (a + b)[1..] == a[1..] + b;
      PruneAnyAppend(sels, a[1..], b);
      var h := if MatchesAny(sels, a[0]) then [] else [PruneNode(sels, a[0])];
      assert h + (PruneAny(sels, a[1..]) + PruneAny(sels, b)) == (h + PruneAny(sels, a[1..])) + PruneAny(sels, b);
    }
  }

  // ---------------------------------------------------------------------
  // Image alt text

  predicate IsImgWithAlt(n: Node) {
    n.Elem? && n.name == "img" && "alt" in n.attrs
  }

  /** Replace every `img[alt]` with a text node holding the alt value. An
      image nested inside a replaced image goes with it. */
  function SubstAlt(ns: seq<Node>): (r: seq<Node>)
    ensures |r| == |ns|
    decreases ns, 0
  {
    if ns == [] then [] else [SubstAltNode(ns[0])] + SubstAlt(ns[1..])
  }

  /** An image with alt text becomes its alt value; any other node keeps its
      name, attributes and tail, and only its subtree is substituted. */
  function SubstAltNode(n: Node): (r: Node)
    ensures IsImgWithAlt(n) ==> r == Text(n.attrs["alt"])
    ensures !IsImgWithAlt(n) ==> SameShape(n, r)
    decreases n, 1
  {
    match n
    case Text(_) => n
    case Elem(name, attrs, children, tail) =>
      if IsImgWithAlt(n) then Text(attrs["alt"])
      else Elem(name, attrs, SubstAlt(children), tail)
  }

  lemma {:induction false} SubstAltAppend(a: seq<Node>, b: seq<Node>)
    ensures SubstAlt(a + b) == SubstAlt(a) + SubstAlt(b)
    decreases |a|
  {
    if a == [] {
      assert a + b == b;
    } else {
      assert (a + b)[0] == a[0];
      assert (a + b)[1..] == a[1..] + b;
      SubstAltAppend(a[1..], b);
    }
  }

  /** An image carrying `alt` contributes exactly its alt value, at its own
      place, to the text of the list it sits in. */
  lemma AltTextInPlace(pre: seq<Node>, img: Node, post: seq<Node>)
    requires IsImgWithAlt(img)
    ensures TextOfAll(SubstAlt(pre + [img] + post))
         == TextOfAll(SubstAlt(pre)) + img.attrs["alt"] + TextOfAll(SubstAlt(post))
  {
    SubstAltAppend(pre + [img], post);
    SubstAltAppend(pre, [img]);
    assert SubstAlt([img]) == [Text(img.attrs["alt"])] + SubstAlt([]);
    var x, y, z := SubstAlt(pre), SubstAlt([img]), SubstAlt(post);
    TextOfAllAppend(x + y, z);
    TextOfAllAppend(x, y);
    assert TextOfAll(y) == img.attrs["alt"] + TextOfAll([]);
  }

  /** After substitution no image with an alt attribute is left. */
  lemma {:induction false} SubstAltLeavesNoImg(ns: seq<Node>)
    ensures forall m :: m in SubtreesOfAll(SubstAlt(ns)) ==> !IsImgWithAlt(m)
    decreases ns, 0
  {
    if ns != [] {
      SubstAltLeavesNoImg(ns[1..]);
      SubstAltNodeLeavesNoImg(ns[0]);
      var h, rest := SubstAltNode(ns[0]), SubstAlt(ns[1..]);
      assert ([h] + rest)[0] == h && ([h] + rest)[1..] == rest;
    }
  }

  lemma {:induction false} SubstAltNodeLeavesNoImg(n: Node)
    ensures forall m :: m in Subtrees(SubstAltNode(n)) ==> !IsImgWithAlt(m)
    decreases n, 1
  {
    match n
    case Text(_) =>
    case Elem(_, _, children, _) =>
      if !IsImgWithAlt(n) {
        SubstAltLeavesNoImg(children);
      }
  }

  /** Substituting images does not bring back anything a selector matches:
      every node it leaves is either a node of the input, reshaped, or the
      text node of an image. */
  lemma {:induction false} SubstAltKeepsUnmatched(sels: seq<SimpleSelector>, ns: seq<Node>)
    requires forall m :: m in SubtreesOfAll(ns) ==> !MatchesAny(sels, m)
    ensures forall m :: m in SubtreesOfAll(SubstAlt(ns)) ==> !MatchesAny(sels, m)
    decreases ns, 0
  {
    if ns != [] {
      SubtreesOfAllAppend([ns[0]], ns[1..]);
      assert ns == [ns[0]] + ns[1..];
      assert SubtreesOfAll([ns[0]]) == Subtrees(ns[0]) + [];
      SubstAltKeepsUnmatched(sels, ns[1..]);
      SubstAltNodeKeepsUnmatched(sels, ns[0]);
      var h, rest := SubstAltNode(ns[0]), SubstAlt(ns[1..]);
      assert ([h] + rest)[0] == h && ([h] + rest)[1..] == rest;
    }
  }

  lemma {:induction false} SubstAltNodeKeepsUnmatched(sels: seq<SimpleSelector>, n: Node)
    requires forall m :: m in Subtrees(n) ==> !MatchesAny(sels, m)
    ensures forall m :: m in Subtrees(SubstAltNode(n)) ==> !MatchesAny(sels, m)
    decreases n, 1
  {
    match n
    case Text(_) =>
    case Elem(_, _, children, _) =>
      if !IsImgWithAlt(n) {
        SubstAltKeepsUnmatched(sels, children);
        var n' := SubstAltNode(n);
        assert n in Subtrees(n);
        assert !MatchesAny(sels, n') by {
          forall sel ensures Matches(sel, n') == Matches(sel, n) { }
        }
      }
  }

  /** Nothing else changes: a node list with no image carrying alt text at
      any depth comes out of the substitution unchanged. */
  lemma {:induction false} SubstAltKeepsImageFree(ns: seq<Node>)
    requires forall m :: m in SubtreesOfAll(ns) ==> !IsImgWithAlt(m)
    ensures SubstAlt(ns) == ns
    decreases ns, 0
  {
    if ns != [] {
      SubtreesOfAllAppend([ns[0]], ns[1..]);
      assert ns == [ns[0]] + ns[1..];
      assert SubtreesOfAll([ns[0]]) == Subtrees(ns[0]) + [];
      SubstAltKeepsImageFree(ns[1..]);
      SubstAltNodeKeepsImageFree(ns[0]);
    }
  }

  lemma {:induction false} SubstAltNodeKeepsImageFree(n: Node)
    requires forall m :: m in Subtrees(n) ==> !IsImgWithAlt(m)
    ensures SubstAltNode(n) == n
    decreases n, 1
  {
    match n
    case Text(_) =>
    case Elem(_, _, children, _) =>
      assert n in Subtrees(n);
      SubstAltKeepsImageFree(children);
  }

  // ---------------------------------------------------------------------
  // Both passes

  /** Neither a display-none element nor an image with alt text. */
  predicate Visible(n: Node) {
    !MatchesAny(DisplayNoneSelectors, n) && !IsImgWithAlt(n)
  }

  /** The document after the display-none pass and the alt pass. The
      document node itself is never a selector match; its descendants are.
      No node below the document node is matched by a display-none selector
      and no image with an alt attribute is left. */
  function Prepare(doc: Node): (r: Node)
    ensures doc.Elem? ==> r.Elem? && SameShape(doc, r)
    ensures r.Elem? ==> forall m :: m in SubtreesOfAll(r.children) ==> Visible(m)
  {
    match doc
    case Text(_) => doc
    case Elem(name, attrs, children, tail) =>
      var pruned := PruneInOrder(DisplayNoneSelectors, children);
      PruneInOrderIsPruneAny(DisplayNoneSelectors, children);
      PruneRemovesAllMatches(DisplayNoneSelectors, children);
      SubstAltKeepsUnmatched(DisplayNoneSelectors, pruned);
      SubstAltLeavesNoImg(pruned);
      Elem(name, attrs, SubstAlt(pruned), tail)
  }

  /** Nothing else changes: a document with no display-none element and no
      image carrying alt text below it comes out of both passes unchanged. */
  lemma PrepareKeepsVisible(doc: Node)
    requires doc.Elem? ==> forall m :: m in SubtreesOfAll(doc.children) ==> Visible(m)
    ensures Prepare(doc) == doc
  {
    if doc.Elem? {
      PruneInOrderIsPruneAny(DisplayNoneSelectors, doc.children);
      PruneKeepsUnmatched(DisplayNoneSelectors, doc.children);
      SubstAltKeepsImageFree(doc.children);
    }
  }

  /** A matched node disappears from the list, with its subtree. */
  lemma PruneDropsMatched(sels: seq<SimpleSelector>, pre: seq<Node>, x: Node, post: seq<Node>)
    requires MatchesAny(sels, x)
    ensures PruneAny(sels, pre + [x] + post) == PruneAny(sels, pre + post)
  {
    PruneAnyAppend(sels, pre + [x], post);
    PruneAnyAppend(sels, pre, [x]);
    PruneAnyAppend(sels, pre, post);
    assert PruneAny(sels, [x]) == PruneAny(sels, []);
  }

  /** An unmatched node stays in place, pruned below. */
  lemma PruneKeepsUnmatchedChild(sels: seq<SimpleSelector>, pre: seq<Node>, x: Node, post: seq<Node>)
    requires !MatchesAny(sels, x)
    ensures PruneAny(sels, pre + [x] + post) == PruneAny(sels, pre) + [PruneNode(sels, x)] + PruneAny(sels, post)
  {
    PruneAnyAppend(sels, pre + [x], post);
    PruneAnyAppend(sels, pre, [x]);
    assert PruneAny(sels, [x]) == [PruneNode(sels, x)] + PruneAny(sels, []);
  }

  /** Both passes applied to a node below the document: its subtree
      pruned, then its images substituted. */
  function Passes(n: Node): Node {
    SubstAltNode(PruneNode(DisplayNoneSelectors, n))
  }

  /** Both passes applied to a list of sibling nodes. */
  function PassesAll(ns: seq<Node>): seq<Node> {
    SubstAlt(PruneAny(DisplayNoneSelectors, ns))
  }

  /** The prepared document keeps its own node and has its children
      passed through both passes. */
  lemma PrepareChildren(doc: Node)
    requires doc.Elem?
    ensures Prepare(doc) == doc.(children := PassesAll(doc.children))
  {
    PruneInOrderIsPruneAny(DisplayNoneSelectors, doc.children);
  }

  /** At any depth: an image with alt text becomes its alt value, and any
      other element keeps its name, attributes and tail while its children
      go through both passes. */
  lemma PassesNode(n: Node)
    ensures IsImgWithAlt(n) ==> Passes(n) == Text(n.attrs["alt"])
    ensures n.Elem? && !IsImgWithAlt(n) ==> Passes(n) == n.(children := PassesAll(n.children))
  {
  }

  /** In any list of siblings, a display-none node is removed with its whole
      subtree and the other siblings are passed as if it were not there. */
  lemma PassesDropHidden(pre: seq<Node>, x: Node, post: seq<Node>)
    requires MatchesAny(DisplayNoneSelectors, x)
    ensures PassesAll(pre + [x] + post) == PassesAll(pre + post)
  {
    PruneDropsMatched(DisplayNoneSelectors, pre, x, post);
  }

  /** In any list of siblings, a node that is not display-none stays in its
      place and goes through both passes itself. */
  lemma PassesKeepVisibleChild(pre: seq<Node>, x: Node, post: seq<Node>)
    requires !MatchesAny(DisplayNoneSelectors, x)
    ensures PassesAll(pre + [x] + post) == PassesAll(pre) + [Passes(x)] + PassesAll(post)
  {
    var d := DisplayNoneSelectors;
    var a, x', b := PruneAny(d, pre), PruneNode(d, x), PruneAny(d, post);
    PruneKeepsUnmatchedChild(d, pre, x, post);
    SubstAltAppend(a + [x'], b);
    SubstAltAppend(a, [x']);
    assert SubstAlt([x']) == [Passes(x)] + SubstAlt([]);
    assert PassesAll(pre + [x] + post) == SubstAlt(a) + SubstAlt([x']) + SubstAlt(b);
  }

  /** In any list of siblings, an image with alt text that is not itself
      display-none contributes exactly its alt value, in its own place, to
      the text of the list after both passes. */
  lemma PassesAltTextInPlace(pre: seq<Node>, img: Node, post: seq<Node>)
    requires IsImgWithAlt(img) && !MatchesAny(DisplayNoneSelectors, img)
    ensures TextOfAll(PassesAll(pre + [img] + post))
         == TextOfAll(PassesAll(pre)) + img.attrs["alt"] + TextOfAll(PassesAll(post))
  {
    var d := DisplayNoneSelectors;
    PruneKeepsUnmatchedChild(d, pre, img, post);
    AltTextInPlace(PruneAny(d, pre), PruneNode(d, img), PruneAny(d, post));
  }
}

=== FILE: scenarios.dfy ===
/** Concrete documents from the project's test table, with a tag-name
    selector query standing in for the CSS library. The trees are the ones
    the HTML5 parser builds: a document node over `html`, which holds
    `head` and `body`. */
module Scenarios {
  import opened Html
  import opened Whitespace
  import opened Prune
  import opened Extract

  /** The elements of `ns`, in order, whose tag is `name`. */
  function ElementsNamed(ns: seq<Node>, name: string): seq<Node> {
    if ns == [] then []
    else (if ns[0].Elem? && ns[0].name == name then [ns[0]] else []) + ElementsNamed(ns[1..], name)
  }

  lemma {:induction false} ElementsNamedAppend(a: seq<Node>, b: seq<Node>, name: string)
    ensures ElementsNamed(a + b, name) == ElementsNamed(a, name) + ElementsNamed(b, name)
    decreases |a|
  {
    if a == [] {
      assert a + b == b;
    } else {
      var h := if a[0].Elem? && a[0].name == name then [a[0]] else [];
      assert (a + b)[0] == a[0];
      assert (a + b)[1..] == a[1..] + b;
      assert ElementsNamed(a + b, name) == h + ElementsNamed(a[1..] + b, name);
      ElementsNamedAppend(a[1..], b, name);
      assert h + (ElementsNamed(a[1..], name) + ElementsNamed(b, name))
          == (h + ElementsNamed(a[1..], name)) + ElementsNamed(b, name);
    }
  }

  /** A type selector (`p`, `h1`, ...): every element below the document
      with that tag, in document order. */
  function TagQuery(doc: Node, sel: string): seq<Node> {
    match doc
    case Text(_) => []
    case Elem(_, _, children, _) => ElementsNamed(SubtreesOfAll(children), sel)
  }

  lemma {:induction false} ElementsNamedMembers(ns: seq<Node>, name: string)
    ensures forall m :: m in ElementsNamed(ns, name) <==> m in ns && m.Elem? && m.name == name
    decreases |ns|
  {
    if ns != [] {
      ElementsNamedMembers(ns[1..], name);
      assert ns == [ns[0]] + ns[1..];
    }
  }

  /** The tag query reports exactly the elements below the document that
      carry the tag, and nothing outside the document: it meets the
      assumption MatchesAreVisible makes of the selector library. */
  lemma TagQueryExact(doc: Node, sel: string)
    requires doc.Elem?
    ensures forall m :: m in TagQuery(doc, sel) <==> m in SubtreesOfAll(doc.children) && m.Elem? && m.name == sel
  {
    ElementsNamedMembers(SubtreesOfAll(doc.children), sel);
  }

  function E(name: string, children: seq<Node>): Node {
    Elem(name, map[], children, None)
  }

  /** A parsed page whose body holds `body`. */
  function Page(body: seq<Node>): Node {
    E("[document]", [E("html", [E("head", []), E("body", body)])])
  }

  lemma NamedInTree(n: Node, name: string)
    ensures ElementsNamed(Subtrees(n), name)
         == (if n.Elem? && n.name == name then [n] else [])
            + (if n.Elem? then ElementsNamed(SubtreesOfAll(n.children), name) else [])
  {
    ElementsNamedAppend([n], if n.Elem? then SubtreesOfAll(n.children) else [], name);
    assert ElementsNamed([n], name) == (if n.Elem? && n.name == name then [n] else []) + ElementsNamed([], name);
  }

  lemma NamedInCons(n: Node, rest: seq<Node>, name: string)
    ensures ElementsNamed(SubtreesOfAll([n] + rest), name)
         == ElementsNamed(Subtrees(n), name) + ElementsNamed(SubtreesOfAll(rest), name)
  {
    assert ([n] + rest)[1..] == rest;
    ElementsNamedAppend(Subtrees(n), SubtreesOfAll(rest), name);
  }

  lemma WalkSingle(doc: Node, sel: string, q: Query)
    ensures Walk(doc, [sel], q) == EmitAll(q(doc, sel))
  {
    assert Walk(doc, [sel], q) == EmitAll(q(doc, sel)) + Walk(doc, [], q);
  }

  lemma WalkPair(doc: Node, s: string, t: string, q: Query)
    ensures Walk(doc, [s, t], q) == EmitAll(q(doc, s)) + EmitAll(q(doc, t))
  {
    assert [s, t][1..] == [t];
    WalkSingle(doc, t, q);
  }

  /** Stripping a string whose only whitespace is at its end. */
  lemma TrimTrailing(r: string, ws: string)
    requires r != [] && IsTrimmed(r) && AllWs(ws)
    ensures Trim(r + ws) == r
  {
    assert (r + ws)[..|r|] == r;
    assert (r + ws)[|r|..] == ws;
  }

  /** Below the document, a selector other than `html` and `head` finds
      the page's `body` first, then the matches inside it. */
  lemma NamedInPage(body: seq<Node>, name: string)
    requires name != "html" && name != "head"
    ensures TagQuery(Page(body), name)
         == (if name == "body" then [E("body", body)] else []) + ElementsNamed(SubtreesOfAll(body), name)
  {
    var head := E("head", []);
    var bd := E("body", body);
    var html := E("html", [head, bd]);
    NamedInHtml(head, bd, name);
    NamedInCons(html, [], name);
    assert [html] + [] == [html];
    assert SubtreesOfAll([]) == [];
    NamedInTree(html, name);
  }

  lemma NamedInHtml(head: Node, bd: Node, name: string)
    requires head == E("head", []) && bd.Elem? && bd.name == "body"
    requires name != "head"
    ensures ElementsNamed(SubtreesOfAll([head, bd]), name)
         == (if name == "body" then [bd] else []) + ElementsNamed(SubtreesOfAll(bd.children), name)
  {
    assert SubtreesOfAll([]) == [];
    NamedInCons(head, [bd], name);
    assert [head] + [bd] == [head, bd];
    NamedInTree(head, name);
    NamedInCons(bd, [], name);
    assert [bd] + [] == [bd];
    NamedInTree(bd, name);
  }

  lemma NamedInLeaf(tag: string, x: string, name: string)
    ensures ElementsNamed(Subtrees(E(tag, [Text(x)])), name)
         == if tag == name then [E(tag, [Text(x)])] else []
  {
    assert SubtreesOfAll([]) == [];
    NamedInTree(E(tag, [Text(x)]), name);
    NamedInCons(Text(x), [], name);
    assert [Text(x)] + [] == [Text(x)];
    NamedInTree(Text(x), name);
  }

  /** A matched element with one text child and no tail contributes its
      text, and a newline when it is a block element. */
  lemma EmitLeaf(tag: string, x: string)
    ensures EmitAll([E(tag, [Text(x)])]) == x + (if tag in NewlineElements then "\n" else "")
  {
    assert TextOfAll([Text(x)]) == x + TextOfAll([]);
    assert EmitAll([E(tag, [Text(x)])]) == Emit(E(tag, [Text(x)])) + EmitAll([]);
  }

  // ---------------------------------------------------------------------
  // `<p>Hello <b>world</b></p>`

  function HelloWorld(hello: string, world: string): Node {
    Page([E("p", [Text(hello), E("b", [Text(world)])])])
  }

  lemma HelloWorldQuery(hello: string, world: string, name: string)
    requires name != "html" && name != "head"
    ensures TagQuery(HelloWorld(hello, world), name)
         == (if name == "body" then [E("body", [E("p", [Text(hello), E("b", [Text(world)])])])] else [])
            + (if name == "p" then [E("p", [Text(hello), E("b", [Text(world)])])] else [])
            + (if name == "b" then [E("b", [Text(world)])] else [])
  {
    var b := E("b", [Text(world)]);
    var p := E("p", [Text(hello), b]);
    assert SubtreesOfAll([]) == [];
    NamedInPage([p], name);
    NamedInCons(p, [], name);
    assert [p] + [] == [p];
    NamedInTree(p, name);
    NamedInCons(Text(hello), [b], name);
    assert [Text(hello)] + [b] == [Text(hello), b];
    NamedInTree(Text(hello), name);
    NamedInCons(b, [], name);
    assert [b] + [] == [b];
    NamedInLeaf("b", world, name);
  }

  lemma HelloWorldText(hello: string, world: string)
    ensures TextOf(E("p", [Text(hello), E("b", [Text(world)])])) == hello + world
  {
    var b := E("b", [Text(world)]);
    assert TextOf(b) == world by {
      assert TextOfAll([Text(world)]) == world + TextOfAll([]);
    }
    assert TextOfAll([b]) == TextOf(b) + TextOfAll([]);
    assert TextOfAll([Text(hello), b]) == hello + TextOfAll([b]);
  }

  lemma HelloWorldBodyOutput(hello: string, world: string)
    ensures EmitAll(TagQuery(HelloWorld(hello, world), "body")) == hello + world + "\n"
  {
    var p := E("p", [Text(hello), E("b", [Text(world)])]);
    var body := E("body", [p]);
    HelloWorldQuery(hello, world, "body");
    HelloWorldText(hello, world);
    assert TextOfAll([p]) == TextOf(p) + TextOfAll([]);
    assert EmitAll([body]) == Emit(body) + EmitAll([]);
  }

  lemma HelloWorldParagraphOutput(hello: string, world: string)
    ensures EmitAll(TagQuery(HelloWorld(hello, world), "p")) == hello + world + "\n"
  {
    var p := E("p", [Text(hello), E("b", [Text(world)])]);
    HelloWorldQuery(hello, world, "p");
    HelloWorldText(hello, world);
    assert EmitAll([p]) == Emit(p) + EmitAll([]);
  }

  lemma HelloWorldBoldOutput(hello: string, world: string)
    ensures EmitAll(TagQuery(HelloWorld(hello, world), "b")) == world
  {
    HelloWorldQuery(hello, world, "b");
    EmitLeaf("b", world);
  }

  /** No selectors: the whole body, and the newline of the block `body`. */
  lemma HelloWorldDefault(hello: string, world: string)
    ensures CliOutput([], HelloWorld(hello, world), false, TagQuery) == Trim(hello + world + "\n")
  {
    WalkSingle(HelloWorld(hello, world), "body", TagQuery);
    HelloWorldBodyOutput(hello, world);
  }

  /** The paragraph: its text, inline elements included, and a newline. */
  lemma HelloWorldParagraph(hello: string, world: string)
    ensures CliOutput(["p"], HelloWorld(hello, world), false, TagQuery) == Trim(hello + world + "\n")
  {
    WalkSingle(HelloWorld(hello, world), "p", TagQuery);
    HelloWorldParagraphOutput(hello, world);
  }

  /** An inline match adds no newline. */
  lemma HelloWorldBold(hello: string, world: string)
    ensures CliOutput(["b"], HelloWorld(hello, world), false, TagQuery) == Trim(world)
  {
    WalkSingle(HelloWorld(hello, world), "b", TagQuery);
    HelloWorldBoldOutput(hello, world);
  }

  /** The first row of the test table: no selectors, and only the
      trailing newline is stripped. */
  lemma HelloWorldDefaultExample(hello: string, world: string)
    requires hello == "Hello " && world == "world"
    ensures CliOutput([], HelloWorld(hello, world), false, TagQuery) == hello + world
  {
    HelloWorldDefault(hello, world);
    HelloTrimmed(hello, world);
  }

  /** The second row: the paragraph selector gives the same text. */
  lemma HelloWorldParagraphExample(hello: string, world: string)
    requires hello == "Hello " && world == "world"
    ensures CliOutput(["p"], HelloWorld(hello, world), false, TagQuery) == hello + world
  {
    HelloWorldParagraph(hello, world);
    HelloTrimmed(hello, world);
  }

  /** The third row: the bold element alone. */
  lemma HelloWorldBoldExample(hello: string, world: string)
    requires hello == "Hello " && world == "world"
    ensures CliOutput(["b"], HelloWorld(hello, world), false, TagQuery) == world
  {
    HelloWorldBold(hello, world);
    TrimOfTrimmed(world);
  }

  lemma HelloTrimmed(hello: string, world: string)
    requires hello == "Hello " && world == "world"
    ensures Trim(hello + world + "\n") == hello + world
  {
    assert (hello + world)[0] == 'H' && (hello + world)[|hello + world| - 1] == 'd';
    TrimTrailing(hello + world, "\n");
  }

  // ---------------------------------------------------------------------
  // A `div` holding three elements, each with one text child:
  // `<div><t1>a</t1><t2>b</t2><t3>c</t3></div>`

  function Row(t1: string, t2: string, t3: string, a: string, b: string, c: string): Node {
    Page([E("div", [E(t1, [Text(a)]), E(t2, [Text(b)]), E(t3, [Text(c)])])])
  }

  lemma RowQuery(t1: string, t2: string, t3: string, a: string, b: string, c: string, name: string)
    requires name != "html" && name != "head" && name != "body" && name != "div"
    ensures TagQuery(Row(t1, t2, t3, a, b, c), name)
         == (if t1 == name then [E(t1, [Text(a)])] else [])
            + (if t2 == name then [E(t2, [Text(b)])] else [])
            + (if t3 == name then [E(t3, [Text(c)])] else [])
  {
    var x, y, z := E(t1, [Text(a)]), E(t2, [Text(b)]), E(t3, [Text(c)]);
    var div := E("div", [x, y, z]);
    NamedInPage([div], name);
    NamedInCons(div, [], name);
    assert [div] + [] == [div];
    assert SubtreesOfAll([]) == [];
    NamedInTree(div, name);
    NamedInLeaves(t1, t2, t3, a, b, c, name);
  }

  lemma NamedInLeaves(t1: string, t2: string, t3: string, a: string, b: string, c: string, name: string)
    ensures ElementsNamed(SubtreesOfAll([E(t1, [Text(a)]), E(t2, [Text(b)]), E(t3, [Text(c)])]), name)
         == (if t1 == name then [E(t1, [Text(a)])] else [])
            + (if t2 == name then [E(t2, [Text(b)])] else [])
            + (if t3 == name then [E(t3, [Text(c)])] else [])
  {
    var x, y, z := E(t1, [Text(a)]), E(t2, [Text(b)]), E(t3, [Text(c)]);
    NamedInCons(x, [y, z], name);
    assert [x] + [y, z] == [x, y, z];
    NamedInLeaf(t1, a, name);
    NamedInTwoLeaves(t2, t3, b, c, name);
  }

  lemma NamedInTwoLeaves(t2: string, t3: string, b: string, c: string, name: string)
    ensures ElementsNamed(SubtreesOfAll([E(t2, [Text(b)]), E(t3, [Text(c)])]), name)
         == (if t2 == name then [E(t2, [Text(b)])] else [])
            + (if t3 == name then [E(t3, [Text(c)])] else [])
  {
    var y, z := E(t2, [Text(b)]), E(t3, [Text(c)]);
    assert SubtreesOfAll([]) == [];
    NamedInCons(y, [z], name);
    assert [y] + [z] == [y, z];
    NamedInCons(z, [], name);
    assert [z] + [] == [z];
    NamedInLeaf(t2, b, name);
    NamedInLeaf(t3, c, name);
  }

  /** `<div><span>a</span><b>b</b><i>c</i>` with selectors `span` and `i`:
      the two inline texts run together, in selector order, and the
      unselected `b` is skipped. */
  lemma InlineSelectors(a: string, b: string, c: string)
    ensures CliOutput(["span", "i"], Row("span", "b", "i", a, b, c), false, TagQuery) == Trim(a + c)
  {
    InlineWalk(a, b, c);
  }

  lemma InlineWalk(a: string, b: string, c: string)
    ensures Walk(Row("span", "b", "i", a, b, c), ["span", "i"], TagQuery) == a + c
  {
    InlineNames();
    RowLeafOutput("span", "b", "i", a, b, c, "span", a);
    RowLeafOutput("span", "b", "i", a, b, c, "i", c);
    WalkPair(Row("span", "b", "i", a, b, c), "span", "i", TagQuery);
  }

  lemma InlineNames()
    ensures "span" !in NewlineElements && "i" !in NewlineElements
  {
  }

  /** A selector that matches exactly one of the row's elements outputs that
      element's text, and a newline after a block element. */
  lemma RowLeafOutput(t1: string, t2: string, t3: string, a: string, b: string, c: string, sel: string, x: string)
    requires sel != "html" && sel != "head" && sel != "body" && sel != "div"
    requires (t1 == sel && t2 != sel && t3 != sel && x == a)
          || (t1 != sel && t2 == sel && t3 != sel && x == b)
          || (t1 != sel && t2 != sel && t3 == sel && x == c)
    ensures EmitAll(TagQuery(Row(t1, t2, t3, a, b, c), sel)) == x + (if sel in NewlineElements then "\n" else "")
  {
    RowQuery(t1, t2, t3, a, b, c, sel);
    assert TagQuery(Row(t1, t2, t3, a, b, c), sel) == [E(sel, [Text(x)])];
    EmitLeaf(sel, x);
  }

  /** `<div><h1>a</h1><p>b</p><pre>c</pre>` with selectors `h1` and `pre`:
      each block match is followed by a newline. */
  lemma BlockSelectors(a: string, b: string, c: string)
    ensures CliOutput(["h1", "pre"], Row("h1", "p", "pre", a, b, c), false, TagQuery) == Trim(a + "\n" + c + "\n")
  {
    BlockWalk(a, b, c);
  }

  lemma BlockWalk(a: string, b: string, c: string)
    ensures Walk(Row("h1", "p", "pre", a, b, c), ["h1", "pre"], TagQuery) == a + "\n" + c + "\n"
  {
    RowLeafOutput("h1", "p", "pre", a, b, c, "h1", a);
    RowLeafOutput("h1", "p", "pre", a, b, c, "pre", c);
    WalkPair(Row("h1", "p", "pre", a, b, c), "h1", "pre", TagQuery);
  }

  /** The fourth row of the test table. */
  lemma InlineExample(a: string, b: string, c: string)
    requires a == "span" && b == "b" && c == "i"
    ensures CliOutput(["span", "i"], Row("span", "b", "i", a, b, c), false, TagQuery) == a + c
  {
    InlineSelectors(a, b, c);
    SpanITrimmed(a, c);
  }

  lemma SpanITrimmed(a: string, c: string)
    requires a == "span" && c == "i"
    ensures Trim(a + c) == a + c
  {
    assert (a + c)[0] == 's' && (a + c)[|a + c| - 1] == 'i';
    TrimOfTrimmed(a + c);
  }

  /** The fifth row: the newline after `pre` is stripped, the one after
      `h1` stays. */
  lemma BlockExample(a: string, b: string, c: string)
    requires a == "H1" && b == "Para" && c == "pre"
    ensures CliOutput(["h1", "pre"], Row("h1", "p", "pre", a, b, c), false, TagQuery) == a + "\n" + c
  {
    BlockSelectors(a, b, c);
    H1PreTrimmed(a, c);
  }

  lemma H1PreTrimmed(a: string, c: string)
    requires a == "H1" && c == "pre"
    ensures Trim(a + "\n" + c + "\n") == a + "\n" + c
  {
    assert (a + "\n" + c)[0] == 'H' && (a + "\n" + c)[|a + "\n" + c| - 1] == 'e';
    TrimTrailing(a + "\n" + c, "\n");
  }

  // ---------------------------------------------------------------------
  // What the command prints, against the outputs the test table expects

  /** First row: "Hello world\n", as the table expects. */
  lemma DefaultRowPrinted(hello: string, world: string)
    requires hello == "Hello " && world == "world"
    ensures Printed([], HelloWorld(hello, world), false, TagQuery) == hello + world + "\n"
  {
    HelloWorldDefaultExample(hello, world);
  }

  /** Second row: "Hello world\n", as the table expects. */
  lemma ParagraphRowPrinted(hello: string, world: string)
    requires hello == "Hello " && world == "world"
    ensures Printed(["p"], HelloWorld(hello, world), false, TagQuery) == hello + world + "\n"
  {
    HelloWorldParagraphExample(hello, world);
  }

  /** Third row: the command prints "world\n". */
  lemma BoldRowPrinted(hello: string, world: string)
    requires hello == "Hello " && world == "world"
    ensures Printed(["b"], HelloWorld(hello, world), false, TagQuery) == world + "\n"
  {
    HelloWorldBoldExample(hello, world);
  }

  /** Third row as the table writes it: the expected "world" lacks the
      newline the command prints. */
  lemma BoldRowAsWritten(hello: string, world: string)
    requires hello == "Hello " && world == "world"
    ensures Printed(["b"], HelloWorld(hello, world), false, TagQuery) != world
  {
    BoldRowPrinted(hello, world);
    assert |world + "\n"| != |world|;
  }

  /** Fourth row: the command prints "spani\n". */
  lemma InlineRowPrinted(a: string, b: string, c: string)
    requires a == "span" && b == "b" && c == "i"
    ensures Printed(["span", "i"], Row("span", "b", "i", a, b, c), false, TagQuery) == a + c + "\n"
  {
    InlineExample(a, b, c);
  }

  /** Fourth row as the table writes it: the expected "spani" lacks the
      newline the command prints. */
  lemma InlineRowAsWritten(a: string, b: string, c: string)
    requires a == "span" && b == "b" && c == "i"
    ensures Printed(["span", "i"], Row("span", "b", "i", a, b, c), false, TagQuery) != a + c
  {
    InlineRowPrinted(a, b, c);
    assert |a + c + "\n"| != |a + c|;
  }

  /** Fifth row: "H1\npre\n", as the table expects. */
  lemma BlockRowPrinted(a: string, b: string, c: string)
    requires a == "H1" && b == "Para" && c == "pre"
    ensures Printed(["h1", "pre"], Row("h1", "p", "pre", a, b, c), false, TagQuery) == a + "\n" + c + "\n"
  {
    BlockExample(a, b, c);
  }

  // ---------------------------------------------------------------------
  // The other reading of the table: every expected output is the walk's
  // join before `.strip()`, written out without echo's newline

  /** First row: the unstripped join is "Hello world\n", the table's value;
      its newline is the one after the block `body`. */
  lemma DefaultRowRawWalk(hello: string, world: string)
    requires hello == "Hello " && world == "world"
    ensures Walk(HelloWorld(hello, world), DefaultSelectors([]), TagQuery) == "Hello world\n"
  {
    WalkSingle(HelloWorld(hello, world), "body", TagQuery);
    HelloWorldBodyOutput(hello, world);
  }

  /** Second row: "Hello world\n", the newline after the block `p`. */
  lemma ParagraphRowRawWalk(hello: string, world: string)
    requires hello == "Hello " && world == "world"
    ensures Walk(HelloWorld(hello, world), ["p"], TagQuery) == "Hello world\n"
  {
    WalkSingle(HelloWorld(hello, world), "p", TagQuery);
    HelloWorldParagraphOutput(hello, world);
  }

  /** Third row: "world", the table's value, since `b` is inline. */
  lemma BoldRowRawWalk(hello: string, world: string)
    requires hello == "Hello " && world == "world"
    ensures Walk(HelloWorld(hello, world), ["b"], TagQuery) == "world"
  {
    WalkSingle(HelloWorld(hello, world), "b", TagQuery);
    HelloWorldBoldOutput(hello, world);
  }

  /** Fourth row: "spani", the table's value. */
  lemma InlineRowRawWalk(a: string, b: string, c: string)
    requires a == "span" && b == "b" && c == "i"
    ensures Walk(Row("span", "b", "i", a, b, c), ["span", "i"], TagQuery) == "spani"
  {
    InlineWalk(a, b, c);
  }

  /** Fifth row: "H1\npre\n", whose last newline is the one after the
      block `pre`. */
  lemma BlockRowRawWalk(a: string, b: string, c: string)
    requires a == "H1" && b == "Para" && c == "pre"
    ensures Walk(Row("h1", "p", "pre", a, b, c), ["h1", "pre"], TagQuery) == "H1\npre\n"
  {
    BlockWalk(a, b, c);
  }
}

=== FILE: whitespace.dfy ===
/** Whitespace handling of strip_tags: Python's `str.strip()` and the
    `minify_whitespace` helper, which rewrites every maximal run matched by
    the regular expression `\s+` according to how many newlines it holds,
    then strips the result. lib.py and cli.py carry textually identical
    copies of the helper, so this one module serves both. */
module Whitespace {

  /** The character class of Python's `\s` on `str` patterns, which is also
      the set `str.isspace()` and `str.strip()` use. The general lemmas use
      only that ' ' and '\n' are members; the concrete scenarios also use
      that the letters of their strings are not. */
  predicate IsWs(c: char) {
    || c == ' ' || c == '\t' || c == '\n' || c == '\r'
    || c == '\U{000B}' || c == '\U{000C}'
    || ('\U{001C}' <= c <= '\U{001F}')
    || c == '\U{0085}' || c == '\U{00A0}' || c == '\U{1680}'
    || ('\U{2000}' <= c <= '\U{200A}')
    || c == '\U{2028}' || c == '\U{2029}' || c == '\U{202F}'
    || c == '\U{205F}' || c == '\U{3000}'
  }

  predicate AllWs(s: string) {
    forall i :: 0 <= i < |s| ==> IsWs(s[i])
  }

  /** No leading and no trailing whitespace. */
  predicate IsTrimmed(s: string) {
    s == [] || (!IsWs(s[0]) && !IsWs(s[|s| - 1]))
  }

  /** s[i..j] is a maximal run of whitespace: non-empty, all whitespace, and
      bordered by the ends of the string or by non-whitespace. */
  predicate IsMaximalRun(s: string, i: int, j: int) {
    && 0 <= i < j <= |s|
    && AllWs(s[i..j])
    && (i == 0 || !IsWs(s[i - 1]))
    && (j == |s| || !IsWs(s[j]))
  }

  /** Every maximal whitespace run is exactly " ", "\n" or "\n\n". */
  predicate RunsCollapsed(s: string) {
    forall i, j | 0 <= i < j <= |s| && IsMaximalRun(s, i, j) :: s[i..j] == " " || s[i..j] == "\n" || s[i..j] == "\n\n"
  }

  /** A local form of RunsCollapsed, stated over neighbouring characters:
      whitespace is only ' ' or '\n', two adjacent whitespace characters are
      both '\n', and no three adjacent characters are all whitespace. */
  predicate WsNormal(s: string) {
    && (forall i :: 0 <= i < |s| && IsWs(s[i]) ==> s[i] == ' ' || s[i] == '\n')
    && (forall i :: 0 <= i < |s| - 1 && IsWs(s[i]) && IsWs(s[i + 1]) ==> s[i] == '\n' && s[i + 1] == '\n')
    && (forall i :: 0 <= i < |s| - 2 ==> !(IsWs(s[i]) && IsWs(s[i + 1]) && IsWs(s[i + 2])))
  }

  /** The non-whitespace characters of s, in order. */
  function NonWs(s: string): string {
    if s == [] then []
    else (if IsWs(s[0]) then [] else [s[0]]) + NonWs(s[1..])
  }

  /** The number of "\n" characters in s: `.count("\n")`. */
  function CountNewlines(s: string): (n: nat)
    ensures n <= |s|
    ensures n == 0 <==> '\n' !in s
  {
    if s == [] then 0
    else (if s[0] == '\n' then 1 else 0) + CountNewlines(s[1..])
  }

  /** Length of the whitespace run at the start of s. */
  function LeadingWs(s: string): (k: nat)
    ensures k <= |s|
    ensures AllWs(s[..k])
    ensures k == |s| || !IsWs(s[k])
  {
    if s == [] || !IsWs(s[0]) then 0
    else
      var k := LeadingWs(s[1..]);
      assert s[..k + 1] == [s[0]] + s[1..][..k];
      1 + k
  }

  /** Length of the whitespace run at the end of s. */
  function TrailingWs(s: string): (k: nat)
    ensures k <= |s|
    ensures AllWs(s[|s| - k..])
    ensures k == |s| || !IsWs(s[|s| - k - 1])
  {
    if s == [] || !IsWs(s[|s| - 1]) then 0
    else
      var t := s[..|s| - 1];
      var k := TrailingWs(t);
      assert s[|s| - (k + 1)..] == t[|t| - k..] + [s[|s| - 1]];
      1 + k
  }

  /** Python's `s.strip()` with no argument. The result follows the
      maximal whitespace prefix of s, only whitespace follows it in s, and
      it neither starts nor ends with whitespace (which makes it unique). */
  function Trim(s: string): (r: string)
    ensures IsTrimmed(r)
    ensures LeadingWs(s) + |r| <= |s|
    ensures r == s[LeadingWs(s)..LeadingWs(s) + |r|]
    ensures AllWs(s[LeadingWs(s) + |r|..])
  {
    var a := LeadingWs(s);
    if a == |s| then
      []
    else
      var b := TrailingWs(s);
      assert a < |s| - b;
      s[a..|s| - b]
  }

  /** The replacement `repl` returns for one whitespace run. */
  function Replacement(run: string): string {
    var n := CountNewlines(run);
    if n >= 2 then "\n\n"
    else if n == 1 then "\n"
    else " "
  }

  /** `_whitespace_re.sub(repl, s)`: every maximal whitespace run replaced,
      everything else copied. */
  function Collapse(s: string): string
    decreases |s|
  {
    if s == [] then []
    else if !IsWs(s[0]) then [s[0]] + Collapse(s[1..])
    else
      var k := LeadingWs(s);
      Replacement(s[..k]) + Collapse(s[k..])
  }

  /** `minify_whitespace(s)`: collapse the runs, then strip. The result is
      stripped, every whitespace run left in it is one of the three
      replacement strings, it keeps exactly the non-whitespace characters of
      s in order, and it is never longer than s. */
  function Minify(s: string): (r: string)
    ensures IsTrimmed(r)
    ensures RunsCollapsed(r)
    ensures NonWs(r) == NonWs(s)
    ensures |r| <= |s|
  {
    CollapseNormal(s);
    CollapseKeepsNonWs(s);
    CollapseNotLonger(s);
    var c := Collapse(s);
    var r := Trim(c);
    TrimNormal(c);
    TrimKeepsNonWs(c);
    WsNormalRunsCollapsed(r);
    r
  }

  // ---------------------------------------------------------------------
  // Facts about the helpers

  lemma {:induction false} NonWsAppend(a: string, b: string)
    ensures NonWs(a + b) == NonWs(a) + NonWs(b)
    decreases |a|
  {
    if a == [] {
      assert a + b == b;
    } else {
      assert (a + b)[1..] == a[1..] + b;
      NonWsAppend(a[1..], b);
      var h := if IsWs(a[0]) then [] else [a[0]];
      assert h + (NonWs(a[1..]) + NonWs(b)) == (h + NonWs(a[1..])) + NonWs(b);
    }
  }

  lemma {:induction false} NonWsOfAllWs(s: string)
    requires AllWs(s)
    ensures NonWs(s) == []
    decreases |s|
  {
    if s != [] {
      NonWsOfAllWs(s[1..]);
    }
  }

  /** The maximal whitespace prefix is determined by its two defining facts. */
  lemma {:induction false} LeadingWsUnique(s: string, k: nat)
    requires k <= |s| && AllWs(s[..k]) && (k == |s| || !IsWs(s[k]))
    ensures LeadingWs(s) == k
    decreases k
  {
    if k > 0 {
      assert s[..k][0] == s[0];
      var t := s[1..];
      var u := s[..k][1..];
      forall i | 0 <= i < |u| ensures IsWs(u[i]) {
        assert u[i] == s[..k][i + 1];
      }
      assert t[..k - 1] == u;
      assert k - 1 == |t| || t[k - 1] == s[k];
      LeadingWsUnique(t, k - 1);
    }
  }

  lemma ReplacementShape(run: string)
    ensures Replacement(run) == " " || Replacement(run) == "\n" || Replacement(run) == "\n\n"
    ensures AllWs(Replacement(run)) && WsNormal(Replacement(run))
  {
  }

  /** Collapsing an all-whitespace string yields the replacement of that one run. */
  lemma CollapseOfRun(run: string)
    requires run != [] && AllWs(run)
    ensures Collapse(run) == Replacement(run)
  {
    LeadingWsUnique(run, |run|);
    assert run[..|run|] == run;
    assert run[|run|..] == [];
  }

  /** Collapse works piecewise at any cut that does not split a whitespace run. */
  lemma {:induction false} CollapseAppend(a: string, b: string)
    requires a == [] || b == [] || !IsWs(a[|a| - 1]) || !IsWs(b[0])
    ensures Collapse(a + b) == Collapse(a) + Collapse(b)
    decreases |a|
  {
    if a == [] {
      assert a + b == b;
    } else if !IsWs(a[0]) {
      assert (a + b)[0] == a[0];
      assert (a + b)[1..] == a[1..] + b;
      CollapseAppend(a[1..], b);
    } else {
      var k := LeadingWs(a);
      RunThenAppend(a, b);
      assert (a + b)[0] == a[0];
      if k < |a| {
        CollapseAppend(a[k..], b);
      } else {
        assert a[k..] == [];
        assert a[k..] + b == b;
      }
    }
  }

  /** Appending after the cut leaves the leading run of `a` as it is. */
  lemma RunThenAppend(a: string, b: string)
    requires a != [] && (b == [] || !IsWs(a[|a| - 1]) || !IsWs(b[0]))
    ensures LeadingWs(a + b) == LeadingWs(a)
    ensures (a + b)[..LeadingWs(a)] == a[..LeadingWs(a)]
    ensures (a + b)[LeadingWs(a)..] == a[LeadingWs(a)..] + b
  {
    var k := LeadingWs(a);
    assert (a + b)[..k] == a[..k];
    assert (a + b)[k..] == a[k..] + b;
    if k == |a| {
      assert IsWs(a[..k][|a| - 1]);
    }
    LeadingWsUnique(a + b, k);
  }

  /** CollapseAppend, phrased as a cut of one string at position k. */
  lemma CollapseSplitAt(s: string, k: int)
    requires 0 <= k <= |s|
    requires k == 0 || k == |s| || !IsWs(s[k - 1]) || !IsWs(s[k])
    ensures Collapse(s) == Collapse(s[..k]) + Collapse(s[k..])
  {
    var a, b := s[..k], s[k..];
    assert s == a + b;
    assert k == 0 || a[|a| - 1] == s[k - 1];
    assert k == |s| || b[0] == s[k];
    CollapseAppend(a, b);
  }

  lemma CollapseFromRun(s: string, i: int, j: int)
    requires IsMaximalRun(s, i, j)
    ensures Collapse(s[i..]) == Replacement(s[i..j]) + Collapse(s[j..])
  {
    var run, post := s[i..j], s[j..];
    assert s[i..] == run + post;
    assert post == [] || post[0] == s[j];
    CollapseAppend(run, post);
    CollapseOfRun(run);
  }

  /** Every maximal whitespace run of the input is replaced, in place, by
      "\n\n", "\n" or " " according to how many newlines it holds, and the
      text on either side of it is processed independently. */
  lemma MaximalRunReplaced(s: string, i: int, j: int)
    requires IsMaximalRun(s, i, j)
    ensures Collapse(s) == Collapse(s[..i]) + Replacement(s[i..j]) + Collapse(s[j..])
  {
    CollapseSplitAt(s, i);
    CollapseFromRun(s, i, j);
  }

  // ---------------------------------------------------------------------
  // Shape of the output

  lemma WsNormalAppend(a: string, b: string)
    requires WsNormal(a) && WsNormal(b)
    requires a == [] || b == [] || !IsWs(a[|a| - 1]) || !IsWs(b[0])
    ensures WsNormal(a + b)
  {
    WsNormalAppendChars(a, b);
    WsNormalAppendPairs(a, b);
    WsNormalAppendTriples(a, b);
  }

  lemma WsNormalAppendChars(a: string, b: string)
    requires WsNormal(a) && WsNormal(b)
    ensures forall i :: 0 <= i < |a + b| && IsWs((a + b)[i]) ==> (a + b)[i] == ' ' || (a + b)[i] == '\n'
  {
    var s := a + b;
    forall i | 0 <= i < |s| && IsWs(s[i])
      ensures s[i] == ' ' || s[i] == '\n'
    {
      if i < |a| {
        assert s[i] == a[i];
      } else {
        assert s[i] == b[i - |a|];
      }
    }
  }

  lemma WsNormalAppendPairs(a: string, b: string)
    requires WsNormal(a) && WsNormal(b)
    requires a == [] || b == [] || !IsWs(a[|a| - 1]) || !IsWs(b[0])
    ensures forall i :: 0 <= i < |a + b| - 1 && IsWs((a + b)[i]) && IsWs((a + b)[i + 1]) ==> (a + b)[i] == '\n' && (a + b)[i + 1] == '\n'
  {
    var s := a + b;
    forall i | 0 <= i < |s| - 1 && IsWs(s[i]) && IsWs(s[i + 1])
      ensures s[i] == '\n' && s[i + 1] == '\n'
    {
      if i + 1 < |a| {
        assert s[i] == a[i] && s[i + 1] == a[i + 1];
      } else if i >= |a| {
        assert s[i] == b[i - |a|] && s[i + 1] == b[i - |a| + 1];
      }
    }
  }

  lemma WsNormalAppendTriples(a: string, b: string)
    requires WsNormal(a) && WsNormal(b)
    requires a == [] || b == [] || !IsWs(a[|a| - 1]) || !IsWs(b[0])
    ensures forall i :: 0 <= i < |a + b| - 2 ==> !(IsWs((a + b)[i]) && IsWs((a + b)[i + 1]) && IsWs((a + b)[i + 2]))
  {
    var s := a + b;
    forall i | 0 <= i < |s| - 2
      ensures !(IsWs(s[i]) && IsWs(s[i + 1]) && IsWs(s[i + 2]))
    {
      if i + 2 < |a| {
        assert s[i] == a[i] && s[i + 1] == a[i + 1] && s[i + 2] == a[i + 2];
      } else if i >= |a| {
        assert s[i] == b[i - |a|] && s[i + 1] == b[i - |a| + 1] && s[i + 2] == b[i - |a| + 2];
      }
    }
  }

  lemma WsNormalSlice(s: string, i: int, j: int)
    requires WsNormal(s) && 0 <= i <= j <= |s|
    ensures WsNormal(s[i..j])
  {
    var t := s[i..j];
    forall k | 0 <= k < |t| - 1 && IsWs(t[k]) && IsWs(t[k + 1])
      ensures t[k] == '\n' && t[k + 1] == '\n'
    {
      assert t[k] == s[i + k] && t[k + 1] == s[i + k + 1];
    }
    forall k | 0 <= k < |t| - 2
      ensures !(IsWs(t[k]) && IsWs(t[k + 1]) && IsWs(t[k + 2]))
    {
      assert t[k] == s[i + k] && t[k + 1] == s[i + k + 1] && t[k + 2] == s[i + k + 2];
    }
  }

  lemma TrimNormal(s: string)
    requires WsNormal(s)
    ensures WsNormal(Trim(s))
  {
    var r, a := Trim(s), LeadingWs(s);
    WsNormalSlice(s, a, a + |r|);
    assert r == s[a..a + |r|];
  }

  /** The collapsed string is in the local normal form, and collapsing keeps
      a leading non-whitespace character in front. */
  lemma {:induction false} CollapseNormal(s: string)
    ensures WsNormal(Collapse(s))
    ensures s != [] && !IsWs(s[0]) ==> Collapse(s) != [] && Collapse(s)[0] == s[0]
    decreases |s|
  {
    if s == [] {
    } else if !IsWs(s[0]) {
      CollapseNormal(s[1..]);
      WsNormalAppend([s[0]], Collapse(s[1..]));
    } else {
      var k := LeadingWs(s);
      CollapseNormal(s[k..]);
      ReplacementShape(s[..k]);
      WsNormalAppend(Replacement(s[..k]), Collapse(s[k..]));
    }
  }

  /** Collapsing keeps a trailing non-whitespace character at the end. */
  lemma CollapseKeepsLast(s: string)
    requires s != [] && !IsWs(s[|s| - 1])
    ensures Collapse(s) != [] && Collapse(s)[|Collapse(s)| - 1] == s[|s| - 1]
  {
    var init, c := s[..|s| - 1], s[|s| - 1];
    assert s == init + [c];
    CollapseAppend(init, [c]);
    assert Collapse([c]) == [c] + Collapse([]);
  }

  lemma NoThreeWs(s: string, i: int)
    requires WsNormal(s) && 0 <= i && i + 2 < |s|
    ensures !(IsWs(s[i]) && IsWs(s[i + 1]) && IsWs(s[i + 2]))
  {
  }

  /** In the local normal form every maximal run is one of the three
      replacement strings. */
  lemma WsNormalRunsCollapsed(s: string)
    requires WsNormal(s)
    ensures RunsCollapsed(s)
  {
    forall i, j | IsMaximalRun(s, i, j)
      ensures s[i..j] == " " || s[i..j] == "\n" || s[i..j] == "\n\n"
    {
      forall k | i <= k < j ensures IsWs(s[k]) {
        assert s[k] == s[i..j][k - i];
      }
      assert j - i <= 2 by {
        if i + 2 < j {
          NoThreeWs(s, i);
        }
      }
      assert j - i == 2 ==> s[i..j] == [s[i], s[i + 1]];
      assert j - i == 1 ==> s[i..j] == [s[i]];
    }
  }

  lemma {:induction false} CollapseKeepsNonWs(s: string)
    ensures NonWs(Collapse(s)) == NonWs(s)
    decreases |s|
  {
    if s == [] {
    } else if !IsWs(s[0]) {
      CollapseKeepsNonWs(s[1..]);
      NonWsAppend([s[0]], Collapse(s[1..]));
    } else {
      var k := LeadingWs(s);
      CollapseKeepsNonWs(s[k..]);
      ReplacementShape(s[..k]);
      NonWsOfAllWs(Replacement(s[..k]));
      NonWsOfAllWs(s[..k]);
      NonWsAppend(Replacement(s[..k]), Collapse(s[k..]));
      assert s == s[..k] + s[k..];
      NonWsAppend(s[..k], s[k..]);
    }
  }

  lemma {:induction false} CollapseNotLonger(s: string)
    ensures |Collapse(s)| <= |s|
    decreases |s|
  {
    if s == [] {
    } else if !IsWs(s[0]) {
      CollapseNotLonger(s[1..]);
    } else {
      var k := LeadingWs(s);
      CollapseNotLonger(s[k..]);
    }
  }

  lemma TrimKeepsNonWs(s: string)
    ensures NonWs(Trim(s)) == NonWs(s)
  {
    var r := Trim(s);
    var i := LeadingWs(s);
    assert s == s[..i] + (r + s[i + |r|..]);
    NonWsAppend(s[..i], r + s[i + |r|..]);
    NonWsAppend(r, s[i + |r|..]);
    NonWsOfAllWs(s[..i]);
    NonWsOfAllWs(s[i + |r|..]);
  }

  /** Stripping a string that is already stripped changes nothing. */
  lemma TrimOfTrimmed(s: string)
    requires IsTrimmed(s)
    ensures Trim(s) == s
  {
    var r := Trim(s);
    if s != [] {
      LeadingWsUnique(s, 0);
    }
  }

  /** Collapse leaves a string in the normal form unchanged. */
  lemma {:induction false} CollapseOfNormal(s: string)
    requires WsNormal(s)
    ensures Collapse(s) == s
    decreases |s|
  {
    if s != [] {
      var k := CollapseNormalStep(s);
      CollapseOfNormal(s[k..]);
      assert s == s[..k] + s[k..];
    }
  }

  /** One step of Collapse on the normal form: the first character, or the
      leading run, is copied unchanged, and the rest is again normal. */
  lemma CollapseNormalStep(s: string) returns (k: nat)
    requires WsNormal(s) && s != []
    ensures 0 < k <= |s| && WsNormal(s[k..])
    ensures Collapse(s) == s[..k] + Collapse(s[k..])
  {
    if IsWs(s[0]) {
      k := LeadingWs(s);
      NormalRunIsOwnReplacement(s);
    } else {
      k := 1;
      assert s[..1] == [s[0]];
    }
    WsNormalSlice(s, k, |s|);
    assert s[k..|s|] == s[k..];
  }

  /** In the normal form the leading run is " ", "\n" or "\n\n", each of
      which is its own replacement. */
  lemma NormalRunIsOwnReplacement(s: string)
    requires WsNormal(s) && s != [] && IsWs(s[0])
    ensures Replacement(s[..LeadingWs(s)]) == s[..LeadingWs(s)]
  {
    var k: nat;
    if s[0] == ' ' || |s| == 1 || !IsWs(s[1]) {
      k := 1;
      assert s[..1] == [s[0]];
    } else {
      k := 2;
      assert s[..2] == [s[0], s[1]];
      assert |s| == 2 || !IsWs(s[2]);
    }
    LeadingWsUnique(s, k);
  }

  /** Minifying twice is the same as minifying once. */
  lemma MinifyIdempotent(s: string)
    ensures Minify(Minify(s)) == Minify(s)
  {
    var c := Collapse(s);
    CollapseNormal(s);
    TrimNormal(c);
    var t := Minify(s);
    CollapseOfNormal(t);
    TrimOfTrimmed(t);
  }

  /** Stripping before minifying makes no difference: the runs at either
      end of the string are removed by the final strip anyway. */
  lemma MinifyIgnoresOuterWs(s: string)
    ensures Minify(Trim(s)) == Minify(s)
  {
    var r := Trim(s);
    var i := LeadingWs(s);
    var pre, post := s[..i], s[i + |r|..];
    assert s == pre + (r + post);
    if r == [] {
      assert s == pre + post;
      AllWsAppend(pre, post);
      MinifyAllWs(s);
      MinifyAllWs(r);
    } else {
      MinifyOfPadded(pre, r, post);
      MinifyOfPadded([], r, []);
      assert [] + (r + []) == r;
    }
  }

  lemma MinifyAllWs(s: string)
    requires AllWs(s)
    ensures Minify(s) == []
  {
    if s != [] {
      CollapseOfRun(s);
      ReplacementShape(s);
    }
  }

  /** Minifying a stripped core padded with whitespace on both sides gives
      the collapsed core. */
  lemma MinifyOfPadded(pre: string, mid: string, post: string)
    requires AllWs(pre) && AllWs(post) && mid != [] && IsTrimmed(mid)
    ensures Minify(pre + (mid + post)) == Collapse(mid)
  {
    CollapsePadded(pre, mid, post);
    CollapseOfTrimmed(mid);
    TrimAroundTrimmed(Collapse(pre), Collapse(mid), Collapse(post));
  }

  lemma CollapsePadded(pre: string, mid: string, post: string)
    requires AllWs(pre) && AllWs(post) && mid != [] && IsTrimmed(mid)
    ensures Collapse(pre + (mid + post)) == Collapse(pre) + (Collapse(mid) + Collapse(post))
    ensures AllWs(Collapse(pre)) && AllWs(Collapse(post))
  {
    CollapseAppend(mid, post);
    assert (mid + post)[0] == mid[0];
    CollapseAppend(pre, mid + post);
    if pre != [] {
      CollapseOfRun(pre);
      ReplacementShape(pre);
    }
    if post != [] {
      CollapseOfRun(post);
      ReplacementShape(post);
    }
  }

  lemma CollapseOfTrimmed(s: string)
    requires s != [] && IsTrimmed(s)
    ensures Collapse(s) != [] && IsTrimmed(Collapse(s))
  {
    CollapseKeepsLast(s);
    CollapseNormal(s);
  }

  lemma AllWsAppend(a: string, b: string)
    requires AllWs(a) && AllWs(b)
    ensures AllWs(a + b)
  {
    forall k | 0 <= k < |a + b| ensures IsWs((a + b)[k]) {
      if k < |a| { assert (a + b)[k] == a[k]; } else { assert (a + b)[k] == b[k - |a|]; }
    }
  }

  /** Stripping removes exactly the whitespace around a stripped middle part. */
  lemma TrimAroundTrimmed(pre: string, mid: string, post: string)
    requires AllWs(pre) && AllWs(post) && mid != [] && IsTrimmed(mid)
    ensures Trim(pre + (mid + post)) == mid
  {
    var s := pre + (mid + post);
    var p := |pre|;
    assert s[..p] == pre;
    assert s[p] == mid[0];
    LeadingWsUnique(s, p);
    var r := Trim(s);
    var last := p + |mid| - 1;
    assert s[last] == mid[|mid| - 1];
    assert |r| == |mid|;
    assert s[p..p + |mid|] == mid;
  }
}
